=== FILE: README.md ===
# asserto, modelled in Dafny

A Dafny model of the core of **asserto**, a fluent assertion library for
Python. In asserto, `Asserto(value)` wraps a value and offers chained checks. A
failing check goes through one error path. The path formats the message from
the session's category and description. In hard mode it raises an
`AssertionError` at once. In a `with` block (soft mode) it stores the failure
instead; when the block exits, the stored failures are raised together as one
aggregate. Some checks are routed to handler classes through a route table
that the `@handled_by` decorator builds. Any name `<key>_is` reaches a dynamic
prober, which compares an attribute or key of the wrapped value. `bind`
registers user functions on the session class.

Python values are the datatype `Values.Value`:
- `None`, `bool`, `int`, float (as an exact real), `str`, tuple, list and dict;
- namedtuple instances (`Record`);
- plain objects with instance attributes (`Obj`);
- zero-argument callables (`Thunk0`) and callables that need arguments (`ThunkN`).

Python `==` is `PyEq`. It covers the numeric tower, namedtuple-versus-tuple
equality and order-insensitive dicts. `is` is equality of model values. Lists,
dicts, plain objects and callables carry an object id, so two separately built
equal lists are different objects.
Exceptions are a datatype, and raising is a result: `Result`, `Check`, or
`Step` (which also carries the state left behind). Messages are
sequences of pieces: literal text, `str(v)` and `repr(v)`. The one rendering
modelled exactly is the count line of the soft aggregate.

Modules follow the source files:
- `Messaging` is `_messaging.py`; `Softly` is `_softly.py`; `ErrorHandling` is `_error_handling.py`.
- `Meta` is `_meta.py`; `Util` is `_util.py`; `Api` is `_api.py`.
- `NumericHandlers`, `BaseHandlers` and `StringHandlers` are the three handler files.
- `Session` and `Dynamic` are `_asserto.py`.
- `Scopes` states the soft/hard laws over chains of checks.
- `Values`, `Builtins`, `Messages` and `Wrappers` are the Python built-ins the core relies on.

Where the source files disagree, each file's code is modelled as written:
- The session builds `ErrorHandler(self._reason)` and calls `ErrorHandler.error`.
  Neither matches `_error_handling.py`, whose handler takes no arguments. The
  session's `error` is therefore modelled as `check_should_raise(soft, reason,
  description, category)`, using `build_assertion_error` formatting.
- `__enter__` and `__exit__` call `transition_to_soft`/`transition_to_hard`,
  and `__exit__` reads `soft_fails`. The error handler has none of these. Enter
  is modelled as "turn soft, then `reset`". Exit is modelled as `check_soft_raise`,
  then "turn hard".
- The checks are decorated with `update_triggered`. `_decorators.py` defines
  this decorator as `triggered`: it sets the flag after the wrapped call
  returns. So a check that raises does not mark the session triggered. The
  decorator writes `instance._state.triggered`, and the session has no
  `_state`. The model reads that write as the session's own `triggered`
  setter (`_asserto.py:64-72`).
- `_dispatch` calls `matches_criterion` as the handler's guard. The string
  handler's guard is `accepts`, and that is what the model runs.
- `_dispatch` instantiates the routed handler class with no arguments. The
  numeric and base handlers then fail with `TypeError` for the missing
  `actual`. `is_digit` and `is_alpha` are routed to `StringHandler`, which
  defines neither. Both end in `AttributeError`.
- The numeric and base handlers cannot be built with a value either. Their
  constructors call `super().__init__(actual)`. Their base class `Handler`
  (`handlers/_handler.py`) defines no `__init__`, so the call reaches
  `object.__init__`, which raises `TypeError` for the extra argument. The
  model keeps this as-written constructor next to the intended one, which
  stores the value (see Findings). The handler checks are stated over a
  handler that holds its value.
- The session class is declared with `metaclass=RouteMeta`, but `_meta.py`
  defines no `RouteMeta`. It defines `AssertoBase`, whose `__init_subclass__`
  builds `_routes` from the tagged members. The model builds the session's
  route table that way.
- The session imports `Errors` from `_templates.py`, which defines only
  `StringErrors`, with the `ends_with` and `starts_with` templates. The
  `ends_with` text (read as `Errors.strings`) and the `starts_with` text (read
  as `Errors.str`) are those templates, with the value and the expected affix
  filled in.
- `is_digit` and `is_alpha` format `Errors.str.is_digit(...)` and
  `Errors.str.is_alpha(...)`, and no template of that name exists. In the
  model their `onFail` parameter stands for that missing template text, and
  `_dispatch` is taken to be reached with it. The lookup of the template
  itself, which would raise before `_dispatch` and leave `triggered` unset, is
  not modelled.

## Model

| member | source | states |
|---|---|---|
| `Messaging.Format` | asserto/_messaging.py:36-40 | a truthy description replaces the reason; a truthy category is put in front as `[cat] ` even when a description is set; with neither, the reason comes back unchanged |
| `Messaging.FormatPrefixesCategory` | asserto/_messaging.py:38-39 | a truthy category only prepends `[category] `; the rest of the message is exactly what the same reason gives without a category |
| `Messaging.FormatIgnoresReasonUnderDescription` | asserto/_messaging.py:37 | once a description is set, the generated reason has no effect on the message |
| `Messaging.FormatExamples` | tests/test_reason.py:9-11 | the three documented cases as literal strings: `[cat_no_desc] reason`, `[cat] desc`, `reason` |
| `Messaging.ComposedFailure.RegisterError` | asserto/_messaging.py:15-16 | registration appends the failure after all earlier ones |
| `Messaging.ComposedFailure.Summary` | asserto/_messaging.py:21-24 | the first line of the rendering is `"<n> Soft Assertion Failures\n"`, where `<n>` is the number of registered failures written in decimal without leading zeros |
| `Messaging.ComposedFailureKeepsOrder` | asserto/_messaging.py:15-19 | registering failures one by one keeps exactly them in order; the object is truthy iff one was registered |
| `Messages.DecimalRoundTrip` | asserto/_softly.py:36 | the decimal count written in the aggregate's first line reads back as the count |
| `Messages.SummaryLineStatesCount` | asserto/_softly.py:36 | the digits leading `"<n> Soft Assertion Failures\n"` are `str(n)`, they read back as `n`, and the rest of the line is the fixed text |
| `Softly.AssertionErrorContainer.Store` | asserto/_softly.py:29-31 | the failure goes after every failure stored before it; the length grows by one |
| `Softly.AssertionErrorContainer.RegisterError` | asserto/_softly.py:15-16 | `register_error` has the same effect as `store` |
| `Softly.AssertionErrorContainer.Clear` | asserto/_softly.py:25-27 | the container is empty and falsy afterwards |
| `Softly.AssertionErrorContainer.Summary` | asserto/_softly.py:33-36 | the first line is `"<n> Soft Assertion Failures\n"`, where `<n>` is the number of stored failures written in decimal without leading zeros |
| `Softly.StoreAllAppends` | asserto/_softly.py:15-16 | stored order equals invocation order over any number of stores |
| `Softly.CountSinceClear` | asserto/_softly.py:18-27 | after `clear`, the length is the number of stores since, and the container is truthy iff there was one |
| `ErrorHandling.NewErrorHandler` | asserto/_error_handling.py:33-34 | a new handler holds no failures |
| `ErrorHandling.Reset` | asserto/_error_handling.py:36-38 | `reset` leaves the container empty |
| `ErrorHandling.BuildAssertionError` | asserto/_error_handling.py:64-83 | the description when truthy, else the cause; prefixed with `[category] ` exactly when a category is given, including an empty one and including when a description is set |
| `ErrorHandling.BuildPrefixesCategory` | asserto/_error_handling.py:82-83 | a given category only prepends `[category] `; the rest of the message is exactly what the same cause and description give without a category |
| `ErrorHandling.ErrorOf` | asserto/_error_handling.py:52 | an already-built `AssertionError` cause passes through unchanged; only a message is formatted |
| `ErrorHandling.CheckShouldRaise` | asserto/_error_handling.py:40-57 | soft: returns and stores the error last; hard: raises it and stores nothing |
| `ErrorHandling.CheckSoftRaise` | asserto/_error_handling.py:59-62 | raises iff the container is non-empty, carrying every stored failure and their count, and never changes the container |
| `ErrorHandling.FormatAgreesWithBuild` | asserto/_error_handling.py:82-83 | `Reason.format` and `build_assertion_error` give the same message iff the category is not the empty string (truthiness against `is None`) |
| `Meta.HandledBy` | asserto/_meta.py:20-30 | the decorated function keeps its name and is tagged with the handler |
| `Meta.HandledByLastWins` | asserto/_meta.py:26-28 | decorating twice leaves the outer tag |
| `Meta.RouteTable` | asserto/_meta.py:16-17 | the table's keys are exactly the tagged members, each mapped to its own tag |
| `Meta.Subclass` | asserto/_meta.py:13-17 | a subclass gets a freshly built table over its inherited and own members; the parent's class value is not changed |
| `Meta.InheritedRoutes` | asserto/_meta.py:14-17 | a subclass routes an inherited tagged member to the parent's handler unless it redefines it |
| `Meta.AssertoRoutes` | asserto/_asserto.py:109-147 | the session class routes exactly `ends_with`, `starts_with`, `is_digit` and `is_alpha`, all to `StringHandler` |
| `Util.Iter` | asserto/_util.py:6-13 | `iter` succeeds exactly on iterables and yields their elements; otherwise `TypeError` |
| `Util.IsIterable` | asserto/_util.py:6-13 | true iff starting iteration does not raise |
| `Util.ToIterable` | asserto/_util.py:16-25 | an iterable's elements in order, or the one-element tuple of a non-iterable |
| `Util.ToIterablePreservesOrder` | asserto/_util.py:22-23 | tuples and lists come back element for element |
| `Util.ToIterableIdempotent` | asserto/_util.py:16-25 | applying it to its own result returns that result |
| `Util.ToIterableExamples` | tests/test_util.py:4-9 | `to_iterable(1) == (1,)` and `to_iterable([1, 2, 3]) == (1, 2, 3)` |
| `Util.IsNamedTupleLike` | asserto/_util.py:28-41 | the base test as written: `IndexError` for a class without bases; false for several bases whose first is not `tuple`; false when `_fields` is not a tuple; otherwise, for one base or a first base of `tuple`, true iff every field name is a string |
| `Util.RecordIsNamedTupleLike` | asserto/_util.py:28-41 | every namedtuple instance is recognised |
| `Util.BuiltinsAreNotNamedTupleLike` | asserto/_util.py:38-39 | no built-in value other than a namedtuple is |
| `Util.NamedTupleLikeAcceptsNonTuple` | asserto/_util.py:36 | the `and` in the base test lets a single-base non-tuple class with a `_fields` tuple through |
| `Handlers.ObjectInit` | asserto/handlers/_handler.py:1-9 | the base class adds no `__init__`, so `super().__init__` with any argument raises `TypeError`, and without arguments it succeeds |
| `NumericHandlers.NewNumberHandlerAsWritten` | asserto/handlers/_numeric.py:14-16 | as written, constructing with any value raises `TypeError` from `object.__init__`, before the float guard |
| `NumericHandlers.NumberHandlerRejectsFloat` | asserto/handlers/_numeric.py:14-16 | the float 1.5, which the guard admits, cannot be wrapped as written, and is stored by the intended constructor |
| `NumericHandlers.NewNumberHandler` | asserto/handlers/_numeric.py:14-16 | the intended constructor: succeeds exactly on floats and stores the value; `bool` and every other value raise a bare `ValueError` (lines 65-67) |
| `NumericHandlers.IsZero` | asserto/handlers/_numeric.py:18-21 | fails iff the value is not 0 |
| `NumericHandlers.IsNotZero` | asserto/handlers/_numeric.py:23-26 | fails iff the value is 0 |
| `NumericHandlers.ZeroChecksComplement` | asserto/handlers/_numeric.py:18-26 | exactly one of `is_zero`, `is_not_zero` passes |
| `NumericHandlers.IsGreaterThan` | asserto/handlers/_numeric.py:28-31 | for a numeric bound, fails iff value ≤ other, with the greater-than message showing the bound as given; a non-numeric bound raises the comparison's `TypeError` |
| `NumericHandlers.IsLesserThan` | asserto/handlers/_numeric.py:33-36 | for a numeric bound, fails iff value ≥ other, with the lesser-than message showing the bound as given; a non-numeric bound raises `TypeError` |
| `NumericHandlers.IsPositive` | asserto/handlers/_numeric.py:38-40 | passes iff the value is above 0; fails with the greater-than message about the int `0` |
| `NumericHandlers.IsNegative` | asserto/handlers/_numeric.py:42-44 | passes iff the value is below 0; fails with the lesser-than message about the int `0` |
| `NumericHandlers.SignChecksExclusive` | asserto/handlers/_numeric.py:18-44 | no value is both positive and negative; 0 is exactly the value that is neither |
| `NumericHandlers.Offset` | asserto/handlers/_numeric.py:50-52 | `low -= 1` / `high += 1`: a number moves by exactly one, an int or bool becomes an int and a float stays a float; anything else raises `TypeError` |
| `NumericHandlers.OutsideBounds` | asserto/handlers/_numeric.py:53 | on numeric bounds, the test is value ≤ low or value ≥ high |
| `NumericHandlers.IsBetween` | asserto/handlers/_numeric.py:46-54 | on numeric bounds, exclusive passes iff low < value < high and inclusive iff low−1 < value < high+1; the failure prints the bounds it compared, as Python prints them; a non-numeric bound raises `TypeError` from the widening (inclusive) or from its comparison when that comparison is reached (exclusive) |
| `NumericHandlers.BetweenRendersBoundsAsGiven` | asserto/handlers/_numeric.py:50-54 | 5.0 against (6, 8) reports `(6, ..., 8)`, inclusive `(5, ..., 9)`, and a string low bound raises the `<=` `TypeError` |
| `NumericHandlers.InclusiveBetweenOnIntegers` | asserto/handlers/_numeric.py:50-53 | on whole numbers the inclusive check is exactly low ≤ value ≤ high, and a non-numeric bound fails it |
| `NumericHandlers.InclusiveBetweenAdmitsOutside` | asserto/handlers/_numeric.py:50-53 | 99.5 passes the inclusive check for [0, 99] |
| `NumericHandlers.IsBetweenIntended` | asserto/handlers/_numeric.py:46-49 | on numeric bounds, inclusive passes iff low ≤ value ≤ high and exclusive iff low < value < high, reporting the bounds as given; a non-numeric bound fails |
| `NumericHandlers.IntendedBetweenAgrees` | asserto/handlers/_numeric.py:46-54 | the corrected check agrees with the code as written on every exclusive call and on inclusive calls whose numbers are whole |
| `NumericHandlers.IsNotBetween` | asserto/handlers/_numeric.py:56-63 | passes exactly when `is_between` passes; when `is_between` fails an assertion it raises its own "to not be between" failure with the bounds as given; a `TypeError` goes through unchanged |
| `NumericHandlers.NotBetweenPassesInside` | asserto/handlers/_numeric.py:56-63 | 5 lies inside (4, 6), yet `is_not_between` passes |
| `NumericHandlers.IsNotBetweenIntended` | asserto/handlers/_numeric.py:56-58 | on numeric bounds, passes iff the value is outside the range, the bounds counting as inside when inclusive; with a non-numeric low bound it raises what `is_between` raises |
| `NumericHandlers.IntendedBetweenComplement` | asserto/handlers/_numeric.py:56-58 | on numeric bounds the corrected `is_not_between` passes iff the corrected `is_between` fails; on any bounds it never passes where `is_between` passes |
| `BaseHandlers.NewBaseHandlerAsWritten` | asserto/handlers/_base.py:11-12 | as written, constructing with any value raises `TypeError` from `object.__init__` |
| `BaseHandlers.BaseHandlerRejectsNone` | asserto/handlers/_base.py:11-12 | even `None` cannot be wrapped as written, and is stored by the intended constructor |
| `BaseHandlers.NewBaseHandler` | asserto/handlers/_base.py:11-12 | the intended constructor stores the value it is given |
| `BaseHandlers.IsTrue` | asserto/handlers/_base.py:14-19 | passes iff the value is truthy |
| `BaseHandlers.IsTruthy` | asserto/handlers/_base.py:21-26 | passes iff the value is truthy |
| `BaseHandlers.IsFalse` | asserto/handlers/_base.py:28-33 | passes iff the value is falsy |
| `BaseHandlers.IsFalsy` | asserto/handlers/_base.py:35-40 | passes iff the value is falsy |
| `BaseHandlers.TruthChecksAgree` | asserto/handlers/_base.py:14-40 | `is_true` decides like `is_truthy`, `is_false` like `is_falsy`, and the two families are complements |
| `BaseHandlers.IsTrueAcceptsTruthyString` | asserto/handlers/_base.py:18 | a non-empty string, not the literal `True`, passes `is_true` |
| `BaseHandlers.IsEqualTo` | asserto/handlers/_base.py:42-44 | fails iff the values are not `==` |
| `BaseHandlers.IsNotEqualTo` | asserto/handlers/_base.py:46-48 | fails iff the values are `==` |
| `BaseHandlers.EqualityChecksOnSelf` | asserto/handlers/_base.py:42-48 | every value is equal to itself; the two equality checks are complements |
| `BaseHandlers.HasLength` | asserto/handlers/_base.py:50-55 | a non-int or negative expected value raises `ValueError` before measuring (0 and `bool` accepted); an unsized value raises `TypeError`; otherwise fails iff the length differs |
| `BaseHandlers.HasSameIdentityAs` | asserto/handlers/_base.py:61-63 | fails iff the two are not the same object |
| `BaseHandlers.DoesNotHaveSameIdentityAs` | asserto/handlers/_base.py:65-67 | fails iff the two are the same object |
| `BaseHandlers.IdentityImpliesEquality` | asserto/handlers/_base.py:42-67 | whatever passes the identity check passes the equality check; the identity checks are complements |
| `BaseHandlers.EqualityDoesNotImplyIdentity` | asserto/handlers/_base.py:42-63 | `1` and `1.0` are equal but not identical |
| `BaseHandlers.SeparateListsAreDistinct` | asserto/handlers/_base.py:42-67 | two separately built lists with the same items are equal, fail `has_same_identity_as` and pass `does_not_have_same_identity_as` |
| `BaseHandlers.IsNone` | asserto/handlers/_base.py:69-71 | fails iff the value is not `None` |
| `BaseHandlers.IsNotNone` | asserto/handlers/_base.py:73-75 | fails iff the value is `None` |
| `BaseHandlers.NoneChecksAreIdentity` | asserto/handlers/_base.py:61-75 | the `None` checks are the identity checks against `None`, and exact complements |
| `StringHandlers.Accepts` | asserto/handlers/_strings.py:9-14 | raises `ValueError` for every non-string and returns for strings |
| `StringHandlers.EndsWithChars` | asserto/handlers/_strings.py:21 | the character-by-character comparison from the end agrees with the slice definition of a suffix |
| `StringHandlers.StartsWithChars` | asserto/handlers/_strings.py:28 | the character-by-character comparison agrees with the prefix relation |
| `StringHandlers.AffixScan` | asserto/handlers/_strings.py:21-28 | a tuple of affixes is scanned left to right: true iff some item matches and every item before it is a string; `TypeError` iff a non-string comes before any match |
| `StringHandlers.AffixScanOfStrings` | asserto/handlers/_strings.py:21-28 | on a tuple of strings only, the scan is true iff some item matches |
| `StringHandlers.EndsWith` | asserto/handlers/_strings.py:16-21 | the guard runs first; a string suffix gives the suffix relation; a tuple (a namedtuple included) is scanned as above, so an all-string tuple matches iff one item ends the string; any other argument raises `TypeError` |
| `StringHandlers.StartsWith` | asserto/handlers/_strings.py:23-28 | the guard runs first; a string prefix gives the prefix relation; a tuple is scanned as above; any other argument raises `TypeError` |
| `StringHandlers.MixedTupleOfSuffixes` | asserto/handlers/_strings.py:21-28 | `"foo"` ends with `("oo", 1)`; `("x", 1)` and, for starts-with, `(1, "f")` raise `TypeError` at the int |
| `StringHandlers.AffixExamples` | tests/test_strings.py:4-15 | `"foo"` ends with `"oo"` and not `"baz"`; `"baz"` starts with `"ba"` and not `"az"` |
| `StringHandlers.NamedTupleOfSuffixes` | asserto/handlers/_strings.py:21-28 | a namedtuple of strings is accepted as a tuple of affixes: `"foo"` ends with one of `("x", "oo")` and does not start with `("x",)` |
| `StringHandlers.Invoke` | asserto/_asserto.py:174 | calling a handler method with the wrapped value and the dispatch arguments; a wrong argument count is a `TypeError` |
| `Session.New` | asserto/_asserto.py:36-43 | a new session is untriggered, hard, without category or description, and stores nothing |
| `Session.ReportedIsNotPassed` | asserto/_error_handling.py:54-57 | no step both reports a failure and passes |
| `Session.Error` | asserto/_asserto.py:45-54 | the message is formatted with the session's reason, then raised (hard) or stored last (soft); nothing else changes |
| `Session.WithCategory` | asserto/_asserto.py:74-87 | overwrites the one stored category and keeps everything else |
| `Session.DescribedAs` | asserto/_asserto.py:89-97 | overwrites the one stored description and keeps everything else |
| `Session.ReasonSettersLastWins` | asserto/_asserto.py:74-97 | the last write of each setter wins, and the two setters commute |
| `Session.DescriptionOverridesMessage` | asserto/_asserto.py:89-97 | with a description and a category set, every failure reads `[category] description` |
| `Session.Construct` | asserto/_asserto.py:165 | instantiating the routed class with no arguments succeeds only for `StringHandler` |
| `Session.HandlerCall` | asserto/_asserto.py:164-174 | a missing route is a "does not have a dedicated handler" `KeyError`; a handler needing arguments is a `TypeError`; a missing method is an `AttributeError`; the guard runs before the method |
| `Session.Dispatch` | asserto/_asserto.py:149-176 | marks the session triggered before the route lookup, so it stays triggered whatever is raised; reports `on_fail` iff the method returned `False`; otherwise returns the session |
| `Session.DispatchTriggersFirst` | asserto/_asserto.py:163-168 | an unrouted caller raises and still leaves the session triggered; a route to a handler needing arguments raises `TypeError` |
| `Session.AffixRoute` | asserto/_asserto.py:164-174 | through the session's route table, `ends_with` and `starts_with` run the string guard and then the handler method with the one argument |
| `Session.EndsWith` | asserto/_asserto.py:109-119 | a non-string raises the guard's `ValueError`; otherwise passes iff the string ends with the suffix and reports "did not end with" if not |
| `Session.StartsWith` | asserto/_asserto.py:121-131 | a non-string raises the guard's `ValueError`; otherwise passes iff the string starts with the prefix and reports "did not start with" if not |
| `Session.IsDigit` | asserto/_asserto.py:133-139 | given its template text as `onFail`, dispatch marks triggered and then raises `AttributeError`, since the routed handler has no `is_digit` |
| `Session.IsAlpha` | asserto/_asserto.py:141-147 | given its template text as `onFail`, dispatch marks triggered and then raises `AttributeError`, since the routed handler has no `is_alpha` |
| `Session.Decorated` | asserto/_decorators.py:12-17 | a check reports its message iff it failed, and marks the session triggered only when it returns normally |
| `Session.IsTrue` | asserto/_asserto.py:184-192 | fails only on the literal `False` (an identity test) |
| `Session.IsFalse` | asserto/_asserto.py:194-202 | fails only on the literal `True` (an identity test) |
| `Session.SessionTruthIsIdentity` | asserto/_asserto.py:184-202 | `None` passes both the session's `is_true` and its `is_false`, and fails the handler's `is_true` |
| `Session.SessionTruthAgreesOnBooleans` | asserto/_asserto.py:184-202 | on booleans the session's and the handler's truth checks decide alike |
| `Session.IsEqualTo` | asserto/_asserto.py:204-214 | fails iff the values are not `==`, reporting both reprs |
| `Session.IsNotEqualTo` | asserto/_asserto.py:216-226 | fails iff the values are `==` |
| `Session.EqualityAgreesWithHandler` | asserto/_asserto.py:204-226 | the session's equality checks pass exactly when the handler's do; a value always passes against itself |
| `Session.HasLength` | asserto/_asserto.py:228-241 | a non-int or negative expected value raises `ExpectedTypeError` before measuring (0 accepted); an unsized value raises `TypeError`; otherwise fails iff the length differs |
| `Session.HasLengthAgreesWithHandler` | asserto/_asserto.py:236-240 | accepts and rejects the same inputs as the handler's `has_length`, `ExpectedTypeError` standing where the handler raises `ValueError` |
| `Session.HasLengthExamples` | tests/test_length.py:8-17 | `[1, 2, 3]` has length 3 and `[]` length 0; `(1, 2, 3)` against 4 raises "Length of: (1, 2, 3) was not equal to: 4" |
| `Session.HasLengthRefusesExpected` | asserto/_asserto.py:236-237 | beyond the tests: −1 and the string `"3"` are refused with `ExpectedTypeError`, a `TypeError`, before the value is measured |
| `Session.RefersTo` | asserto/_asserto.py:258-267 | fails iff the two are not the same object |
| `Session.DoesNotReferTo` | asserto/_asserto.py:269-278 | fails iff the two are the same object |
| `Session.IsNone` | asserto/_asserto.py:280-289 | fails iff the value is not `None` |
| `Session.IsNotNone` | asserto/_asserto.py:291-300 | fails iff the value is `None` |
| `Session.SeparateListsDoNotReferToEachOther` | asserto/_asserto.py:258-278 | `asserto([]).refers_to([])` reports the two separate lists, and `does_not_refer_to` passes |
| `Session.IdentityAgreesWithHandler` | asserto/_asserto.py:258-300 | the identity and `None` checks pass exactly when the handler's do; `is_none` is `refers_to(None)`; `is_none` and `is_not_none` are complements |
| `Session.Enter` | asserto/_asserto.py:361-370 | the session turns soft with an empty container; value, flag and reason are kept |
| `Session.Exit` | asserto/_asserto.py:372-384 | raises one aggregate of every stored failure, with their count, iff something was stored, leaving the session as it was; otherwise the session turns hard |
| `Dynamic.MissingFailure` | asserto/_asserto.py:329-335 | no failure iff the value has the attribute or, when probed by key, contains the key; otherwise "missing key" for a keyed value and "missing attribute" for the rest |
| `Dynamic.GetAttrFallback` | asserto/_asserto.py:314-335 | a name not ending in `_is` is an "unknown assertion method" `AttributeError`; otherwise the probe's key is the name minus `_is`, and the value is classified record-like and mapping-like |
| `Dynamic.ProbeKeyIsNameWithoutSuffix` | asserto/_asserto.py:322-324 | `<key>_is` always probes exactly `key` |
| `Dynamic.RecordProbedByAttribute` | asserto/_asserto.py:325-326 | a namedtuple is mapping-like yet probed by attribute: record-like takes precedence |
| `Dynamic.DictProbedByKey` | asserto/_asserto.py:331 | a dict is probed by key |
| `Dynamic.Resolve` | asserto/_asserto.py:343-351 | looks up by key or by attribute; a callable is called with no arguments; one needing arguments becomes `DynamicCallableWithArgsError` |
| `Dynamic.Compare` | asserto/_asserto.py:341-354 | any argument count other than 1 is the arity `TypeError`; a differing value reports "was not equal to"; an equal one returns the session |
| `Dynamic.Invoke` | asserto/_asserto.py:337-356 | always marks triggered; a failure found at lookup is reported at the call: raised in hard mode; in soft mode stored, after which the call carries on with the arity check, the lookup and the comparison |
| `Dynamic.ProbeExampleObject` | tests/test_dynamic.py:11 | an object attribute equal to the argument passes |
| `Dynamic.ProbeExampleDict` | tests/test_dynamic.py:12 | a dict key whose value equals the argument passes |
| `Dynamic.ProbeExampleRecord` | tests/test_dynamic.py:14-15 | a namedtuple field equal to the argument passes |
| `Dynamic.ProbeExampleMethod` | tests/test_dynamic.py:18-23 | a zero-argument method's result is compared |
| `Dynamic.ProbeExampleCallableWithArgs` | tests/test_dynamic.py:26-33 | a method needing arguments raises `DynamicCallableWithArgsError` naming the key, which is a `TypeError` as the test expects |
| `Dynamic.ProbeExampleMissingAttribute` | tests/test_dynamic.py:36-39 | a missing attribute raises "missing attribute: a" at the call |
| `Dynamic.ProbeExampleWrongValue` | tests/test_dynamic.py:42-45 | 9 against 10 raises "9 was not equal to: 10" |
| `Dynamic.ProbeExampleArity` | tests/test_dynamic.py:48-58 | two arguments raise the arity `TypeError`; `not_ends_with` is an unknown assertion method |
| `Dynamic.SoftMissingKeyStillRaises` | asserto/_asserto.py:338-343 | in soft mode a missing dict key is stored as a failure and the call then still raises `KeyError` |
| `Api.Bind` | asserto/_api.py:18-53 | refuses non-functions, `_is` names and `<lambda>`, in that order, with their messages, leaving the registry unchanged; otherwise maps exactly that name to the function and changes no other entry |
| `Api.BindAllProbeFree` | asserto/_api.py:47-49 | however many binds succeed or fail, no registered name ends in `_is` |
| `Api.Lookup` | asserto/_asserto.py:314-322 | instance attributes first, then bound functions (which replace class members of the same name), then class members, and only then the `_is` prober |
| `Api.RoutesIsClassMember` | asserto/_asserto.py:34 | the class attribute `_routes` is found on the class and never reaches `__getattr__` |
| `Api.AssertoMembersProbeFree` | asserto/_asserto.py:314-322 | no member of the session class and no instance attribute ends in `_is` |
| `Api.ProbeNeverShadowed` | asserto/_api.py:47-53 | after any sequence of binds, every `<key>_is` name still reaches the prober |
| `Api.BindExamples` | tests/test_binding.py:34-59 | an unbound name is an unknown assertion method and reaches the function once bound; the three refusals carry their messages |
| `Scopes.ApplyReports` | asserto/_asserto.py:184-300 | every check reports exactly when it fails, with its own message |
| `Scopes.SoftChainStoresInOrder` | asserto/_error_handling.py:54-56 | in soft mode a chain of checks never raises and stores each failure it meets, in call order, after those already stored |
| `Scopes.HardChainStopsAtFirst` | asserto/_error_handling.py:57 | in hard mode a chain raises iff some check fails, raises the first failure, and stores nothing |
| `Scopes.SoftScope` | asserto/_asserto.py:361-384 | enter, checks, exit: the exit raises iff some check failed, with exactly those failures in order and their count; otherwise the session is hard again with nothing stored |
| `Scopes.ScopeForgetsEarlierFailures` | asserto/_asserto.py:361-370 | failures stored before entering do not reach the scope's aggregate |
| `Builtins.Len` | asserto/_asserto.py:239 | `len` succeeds exactly on sized values and gives their size; otherwise `TypeError` |
| `Builtins.DictGet` | asserto/_asserto.py:343 | a dict lookup finds a value iff the key is one of the dict's keys, and the value is the one stored under the first entry with that key |
| `Builtins.GetItem` | asserto/_asserto.py:343 | a string subscript succeeds exactly on a dict holding the key; a dict without it raises `KeyError` with the key's repr; other values raise `TypeError` |
| `Builtins.GetAttr` | asserto/_asserto.py:343 | `getattr` succeeds iff the attribute exists and gives its value; otherwise `AttributeError` |
| `Builtins.CallNoArgs` | asserto/_asserto.py:344-347 | calling without arguments succeeds exactly on zero-argument callables and gives their result; otherwise `TypeError` |
| `Messaging.RegisterAllAppends` | asserto/_messaging.py:15-16 | registering a sequence of failures appends exactly that sequence to the ones already held |
| `Softly.Empty` | asserto/_softly.py:12-13 | a new container holds no failures |
| `Values.PyEqReflexive` | asserto/handlers/_base.py:42-44 | every model value is `==` to itself, so equality checks against the value itself pass |
| `Values.IsImpliesPyEq` | asserto/handlers/_base.py:61-67 | identical values are equal |

## Left out

- Callable-raising checks (`should_raise` and the `_raising`, `_callable` and `_exc_handling` modules) invoke arbitrary foreign callables and match exceptions by type and regex; they are not part of this model.
- `matches` and the regex handler depend on Python's regex engine and are not modelled.
- `is_instance` depends on Python class hierarchies and abstract-base-class registration and is not modelled.
- The warning that `__del__` and `__exit__` emit for an untriggered session is finalizer-timed I/O; only the `triggered` flag is modelled.
- `inspect.stack()` caller recovery is replaced by an explicit caller name, and `inspect.getmembers` by an explicit member map.
- `repr`, `str` and `pprint` rendering are symbolic pieces; only the aggregate's count line is rendered concretely.
- Floats are exact reals: no rounding, infinities or NaN. Complex numbers are not modelled.
- Attributes of built-in classes (`str.upper`, `dict.keys`, …) and objects with a user-defined `__len__`, `__eq__` or `__getitem__` are not modelled. `hasattr` is false on built-in values, and `len` is defined on the built-in containers and namedtuples only.
- The `__getattribute__` hook in `asserto/handlers/_meta.py` calls an `accept` method that no handler defines. It is not modelled; the string handler's guard is `accepts`.
- The `type_of` argument of the `asserto()` factory is not modelled; a session starts hard.
- `Session.IsDigit`: the string handler has no `is_digit` method, so `str.isdigit` itself is not modelled; the `Errors.str.is_digit` template is missing too, so `onFail` is a parameter and the lookup that would raise before `_dispatch` is not modelled.
- `Session.IsAlpha`: the string handler has no `is_alpha` method, so `str.isalpha` itself is not modelled; the `Errors.str.is_alpha` template is missing too, so `onFail` is a parameter and the lookup that would raise before `_dispatch` is not modelled.
- BaseHandlers.HasSameIdentityAs: equal numbers, strings and tuples count as one object. CPython's identity for separately built immutable values depends on interning and constant folding, which is not modelled.
- BaseHandlers.DoesNotHaveSameIdentityAs: equal numbers, strings and tuples count as one object, for the same reason.
- Session.RefersTo: equal numbers, strings and tuples count as one object, for the same reason.
- Session.DoesNotReferTo: equal numbers, strings and tuples count as one object, for the same reason.
- Api.Lookup: attributes every class inherits from `object` (`__class__`, `__dict__`, `__eq__` and the like) are not class members in the model, so such a name reaches the `__getattr__` fallback instead of the inherited attribute.
- NumericHandlers.Offset: a class that defines its own `__add__`/`__sub__` is treated like any non-number, and the `TypeError` text follows CPython's wording for the built-in kinds only.
- NumericHandlers.OutsideBounds: a class that defines its own comparisons is treated like any non-number.
- `Util.IsNamedTupleLike`: the `bool` and `isinstance(f, str)` checks follow the model's value kinds; subclasses of `str` or `tuple` are not modelled.

## Findings

| source | as written | input that shows it | evidently intended | confidence | as-written member | corrected member |
|---|---|---|---|---|---|---|
| asserto/handlers/_numeric.py:14-16 | `super().__init__(actual)` goes to `Handler`, which has no `__init__`, so `object.__init__` receives the value | `NumberHandler(1.5)` raises `TypeError` | the base stores `actual`, and only the float guard can refuse | not executed | `NumericHandlers.NumberHandlerRejectsFloat` | `NumericHandlers.NewNumberHandler` |
| asserto/handlers/_base.py:11-12 | the same `super().__init__(actual)` call into `object.__init__` | `BaseHandler(None)` raises `TypeError` | the handler stores the value it is given | not executed | `BaseHandlers.BaseHandlerRejectsNone` | `BaseHandlers.NewBaseHandler` |
| asserto/handlers/_numeric.py:50-53 | `inclusive` widens both bounds by 1 and still compares strictly | `is_between(0, 99, inclusive=True)` on 99.5 passes | inclusive means low ≤ value ≤ high, which the widening matches only on whole numbers | not executed | `NumericHandlers.InclusiveBetweenAdmitsOutside` | `NumericHandlers.IsBetweenIntended` |
| asserto/handlers/_numeric.py:59-63 | returns when `is_between` passes and raises when it fails | `is_not_between(4, 6)` on 5 passes | passes iff the value is outside the range | not executed | `NumericHandlers.NotBetweenPassesInside` | `NumericHandlers.IsNotBetweenIntended` |

=== FILE: api.dfy ===
/**
 * `bind`: registering a user function on the session class, and the attribute
 * lookup on a session that decides whether a name reaches a bound function,
 * one of the class's own methods, or the dynamic `<key>_is` prober.
 */
module Api {

  import opened Wrappers
  import opened Values
  import opened Messages
  import Meta
  import Dynamic

  /** A Python function object; only its `__name__` matters here. */
  datatype UserFunction = UserFunction(name: string, id: nat)

  /** What `bind` is handed: a function, or some other object (a class, say). */
  datatype Candidate = Function(f: UserFunction) | NotAFunction(v: Value)

  /** The functions `bind` has set on the session class, by name. */
  type Registry = map<string, UserFunction>

  const NotAFunctionMessage: string := "Binding functions must be of function types."
  const ProbeNameMessage: string := "Binding functions cannot end with `_is`"
  const LambdaMessage: string := "Binding functions does not support lambdas, they have no name"

  /** `bind(function)`, with its three refusals checked in order; an accepted
      function is set on the class under its own name. */
  function Bind(reg: Registry, c: Candidate): (r: Step<Registry>)
    ensures c.NotAFunction? ==> r == Threw(reg, ValueError(Plain(NotAFunctionMessage)))
    ensures c.Function? && Dynamic.IsProbeName(c.f.name) ==> r == Threw(reg, ValueError(Plain(ProbeNameMessage)))
    ensures c.Function? && c.f.name == "<lambda>" ==> r == Threw(reg, ValueError(Plain(LambdaMessage)))
    ensures r.Done? <==> c.Function? && !Dynamic.IsProbeName(c.f.name) && c.f.name != "<lambda>"
    ensures r.Threw? ==> r.state == reg
    ensures r.Done? ==> c.f.name in r.state && r.state[c.f.name] == c.f
    ensures r.Done? ==> forall k :: k != c.f.name ==> (k in r.state <==> k in reg) && (k in reg ==> r.state[k] == reg[k])
  {
    match c
    case NotAFunction(_) => Threw(reg, ValueError(Plain(NotAFunctionMessage)))
    case Function(f) =>
      if Dynamic.IsProbeName(f.name) then Threw(reg, ValueError(Plain(ProbeNameMessage)))
      else if f.name == "<lambda>" then
        assert "<lambda>"[5..] != "_is";
        Threw(reg, ValueError(Plain(LambdaMessage)))
      else Done(reg[f.name := f])
  }

  /** Binding a sequence of candidates in turn, ignoring the refusals. */
  function BindAll(reg: Registry, cs: seq<Candidate>): Registry
    decreases |cs|
  {
    if cs == [] then reg else BindAll(Bind(reg, cs[0]).state, cs[1..])
  }

  /** No registered name ends in `_is`. */
  predicate ProbeFree(reg: Registry)
  {
    forall k :: k in reg ==> !Dynamic.IsProbeName(k)
  }

  /** However many binds succeed or fail, a registry that starts without
      `_is` names stays without them. */
  lemma {:induction false} BindAllProbeFree(reg: Registry, cs: seq<Candidate>)
    requires ProbeFree(reg)
    ensures ProbeFree(BindAll(reg, cs))
    decreases |cs|
  {
    if cs != [] {
      BindAllProbeFree(Bind(reg, cs[0]).state, cs[1..]);
    }
  }

  /** The attributes every session instance sets in `__init__`. */
  const InstanceAttributes: set<string> := {"actual", "_triggered", "_reason", "_error_handler"}

  /** Where `session.<name>` is found. */
  datatype Attribute =
    | InstanceField(name: string)
    | Bound(f: UserFunction)
    | ClassMember(name: string)
    | Prober(probe: Dynamic.Probe)

  /** `getattr(session, name)`: the instance's own attributes, then the class
      (where bound functions replace members of the same name), and only then
      the `__getattr__` fallback. */
  function Lookup(reg: Registry, actual: Value, name: string): (r: Result<Attribute, Exception>)
    ensures name in InstanceAttributes ==> r == Ok(InstanceField(name))
    ensures name !in InstanceAttributes && name in reg ==> r == Ok(Bound(reg[name]))
    ensures name !in InstanceAttributes && name !in reg && name in Meta.AssertoMembers() ==> r == Ok(ClassMember(name))
    ensures name !in InstanceAttributes && name !in reg && name !in Meta.AssertoMembers() ==>
              r == (match Dynamic.GetAttrFallback(actual, name) case Ok(p) => Ok(Prober(p)) case Err(e) => Err(e))
  {
    if name in InstanceAttributes then Ok(InstanceField(name))
    else if name in reg then Ok(Bound(reg[name]))
    else if name in Meta.AssertoMembers() then Ok(ClassMember(name))
    else
      match Dynamic.GetAttrFallback(actual, name)
      case Ok(p) => Ok(Prober(p))
      case Err(e) => Err(e)
  }

  /** The session class has no member of its own whose name ends in `_is`. */
  lemma AssertoMembersProbeFree(name: string)
    requires Dynamic.IsProbeName(name)
    ensures name !in Meta.AssertoMembers()
    ensures name !in InstanceAttributes
  {
    assert name[|name| - 3..] == "_is";
    assert name[|name| - 2] == 'i' && name[|name| - 1] == 's';
    assert name !in Meta.AssertoUntagged;
    assert name !in Meta.AssertoTagged;
    assert Meta.AssertoMembers().Keys == Meta.AssertoUntagged + Meta.AssertoTagged;
  }

  /** A registry built by binds never shadows the prober: every `<key>_is`
      name on a session still reaches `__getattr__`. */
  lemma ProbeNeverShadowed(cs: seq<Candidate>, actual: Value, name: string)
    requires Dynamic.IsProbeName(name)
    ensures var r := Lookup(BindAll(map[], cs), actual, name);
            r == (match Dynamic.GetAttrFallback(actual, name) case Ok(p) => Ok(Prober(p)) case Err(e) => Err(e))
  {
    BindAllProbeFree(map[], cs);
    AssertoMembersProbeFree(name);
  }

  /** The class attribute `_routes` is found on the class and never reaches the prober. */
  lemma RoutesIsClassMember(actual: Value)
    ensures Lookup(map[], actual, "_routes") == Ok(ClassMember("_routes"))
  {
    assert "_routes" in Meta.AssertoUntagged;
    assert "_routes" in Meta.AssertoMembers();
  }

  /** The library's tests: an unbound name is an unknown assertion method; once
      bound, the same name reaches the function; refused candidates. */
  lemma BindExamples(f: UserFunction, v: Value)
    requires f.name == "is_length_five"
    ensures Lookup(map[], Int(5), "is_length_five") ==
            Err(AttributeError(Plain("unknown assertion method: is_length_five")))
    ensures Bind(map[], Function(f)) == Done(map["is_length_five" := f])
    ensures Lookup(Bind(map[], Function(f)).state, Int(5), "is_length_five") == Ok(Bound(f))
    ensures Bind(map[], Function(UserFunction("<lambda>", 0))).error == ValueError(Plain(LambdaMessage))
    ensures Bind(map[], Function(UserFunction("foo_is", 0))).error == ValueError(Plain(ProbeNameMessage))
    ensures Bind(map[], NotAFunction(v)).error == ValueError(Plain(NotAFunctionMessage))
  {
    assert "is_length_five"[11..] != "_is";
    assert "foo_is"[3..] == "_is";
    assert "is_length_five" !in Meta.AssertoMembers() by {
      assert "is_length_five" !in Meta.AssertoUntagged;
      assert "is_length_five" !in Meta.AssertoTagged;
    }
    assert "unknown assertion method: " + "is_length_five" == "unknown assertion method: is_length_five";
  }
}

=== FILE: base_handler.dfy ===
/**
 * `BaseHandler`: the checks that apply to any value — truthiness, equality,
 * length, identity and `None`. Each returns nothing on success and raises on
 * failure, written here as a `Check`.
 */
module BaseHandlers {

  import opened Wrappers
  import opened Values
  import opened Messages
  import Builtins
  import Handlers

  datatype BaseHandler = BaseHandler(actual: Value)

  /** The constructor as written: `super().__init__(actual)` reaches
      `object.__init__`, which refuses the argument, so no value can be wrapped. */
  function NewBaseHandlerAsWritten(actual: Value): (r: Result<BaseHandler, Exception>)
    ensures r.Err? && r.error.TypeError?
  {
    match Handlers.ObjectInit([actual])
    case Some(e) => Err(e)
    case None => NewBaseHandler(actual)
  }

  /** The constructor as intended: the handler stores the value it is given. */
  function NewBaseHandler(actual: Value): (r: Result<BaseHandler, Exception>)
    ensures r.Ok? && r.value.actual == actual
  {
    Ok(BaseHandler(actual))
  }

  /** The discrepancy: even `None` cannot be wrapped as written. */
  lemma BaseHandlerRejectsNone()
    ensures NewBaseHandlerAsWritten(NoneV).Err?
    ensures NewBaseHandler(NoneV) == Ok(BaseHandler(NoneV))
  {
  }

  /** The check raised `AssertionError` with this message. */
  function Fails(message: Text): Check
  {
    Fail(AssertionError(Failure(message)))
  }

  /** `is_true` tests `not actual`, so any truthy value passes. */
  function IsTrue(h: BaseHandler): (r: Check)
    ensures r.Pass? <==> Truthy(h.actual)
    ensures r.Fail? ==> r.error.AssertionError?
  {
    if !Truthy(h.actual) then Fails([StrOf(h.actual), Lit(" was not True")]) else Pass
  }

  function IsTruthy(h: BaseHandler): (r: Check)
    ensures r.Pass? <==> Truthy(h.actual)
    ensures r.Fail? ==> r.error.AssertionError?
  {
    if !Truthy(h.actual) then Fails([StrOf(h.actual), Lit(" was not truthy")]) else Pass
  }

  /** `is_false` tests `actual` in a boolean context, so any falsy value passes. */
  function IsFalse(h: BaseHandler): (r: Check)
    ensures r.Pass? <==> !Truthy(h.actual)
    ensures r.Fail? ==> r.error.AssertionError?
  {
    if Truthy(h.actual) then Fails([StrOf(h.actual), Lit(" was not False")]) else Pass
  }

  function IsFalsy(h: BaseHandler): (r: Check)
    ensures r.Pass? <==> !Truthy(h.actual)
    ensures r.Fail? ==> r.error.AssertionError?
  {
    if Truthy(h.actual) then Fails([StrOf(h.actual), Lit(" was not falsy")]) else Pass
  }

  /** The explicit and the boolean-context checks decide alike, and the true
      and false families are complements. */
  lemma TruthChecksAgree(h: BaseHandler)
    ensures IsTrue(h).Pass? == IsTruthy(h).Pass?
    ensures IsFalse(h).Pass? == IsFalsy(h).Pass?
    ensures IsTrue(h).Pass? != IsFalse(h).Pass?
  {
  }

  /** `is_true` is not a test for the literal `True`: a non-empty string passes it. */
  lemma IsTrueAcceptsTruthyString()
    ensures IsTrue(BaseHandler(Str("a"))).Pass?
    ensures Str("a") != Bool(true)
  {
  }

  function IsEqualTo(h: BaseHandler, other: Value): (r: Check)
    ensures r.Pass? <==> PyEq(h.actual, other)
    ensures r.Fail? ==> r.error == AssertionError(Failure([StrOf(h.actual), Lit(" is not equal to: "), StrOf(other)]))
  {
    if !PyEq(h.actual, other) then Fails([StrOf(h.actual), Lit(" is not equal to: "), StrOf(other)]) else Pass
  }

  function IsNotEqualTo(h: BaseHandler, other: Value): (r: Check)
    ensures r.Pass? <==> !PyEq(h.actual, other)
    ensures r.Fail? ==> r.error == AssertionError(Failure([StrOf(h.actual), Lit(" was equal to: "), StrOf(other)]))
  {
    if PyEq(h.actual, other) then Fails([StrOf(h.actual), Lit(" was equal to: "), StrOf(other)]) else Pass
  }

  /** Every value is equal to itself, and the two equality checks are complements. */
  lemma EqualityChecksOnSelf(h: BaseHandler, other: Value)
    ensures IsEqualTo(h, h.actual).Pass?
    ensures IsNotEqualTo(h, h.actual).Fail?
    ensures IsEqualTo(h, other).Pass? != IsNotEqualTo(h, other).Pass?
  {
    PyEqReflexive(h.actual);
  }

  /** The integer an `isinstance(x, int)` value stands for; `bool` is a subclass of `int`. */
  function IntOf(v: Value): (r: Option<int>)
    ensures r.Some? <==> v.Int? || v.Bool?
  {
    match v
    case Int(i) => Some(i)
    case Bool(b) => Some(if b then 1 else 0)
    case _ => None
  }

  /** `has_length`: the expected value is validated first (a non-int or negative
      one raises `ValueError`, zero is accepted), then `len(actual)` is taken,
      which raises `TypeError` for an unsized value, then the lengths are compared. */
  function HasLength(h: BaseHandler, expected: Value): (r: Check)
    ensures IntOf(expected).None? || IntOf(expected).value < 0 ==>
              r == Fail(ValueError([StrOf(expected), Lit(" must be an int and greater than 0")]))
    ensures IntOf(expected).Some? && IntOf(expected).value >= 0 ==>
              (r.Pass? <==> Size(h.actual) == Some(IntOf(expected).value as nat))
    ensures IntOf(expected).Some? && IntOf(expected).value >= 0 && Size(h.actual).None? ==>
              r.Fail? && r.error.TypeError?
    ensures IntOf(expected).Some? && IntOf(expected).value >= 0 && Size(h.actual).Some? && r.Fail? ==>
              r.error == AssertionError(Failure([Lit("Length of: "), ReprOf(h.actual), Lit(" was not equal to: "), ReprOf(expected)]))
  {
    match IntOf(expected)
    case None => Fail(ValueError([StrOf(expected), Lit(" must be an int and greater than 0")]))
    case Some(n) =>
      if n < 0 then Fail(ValueError([StrOf(expected), Lit(" must be an int and greater than 0")]))
      else
        match Builtins.Len(h.actual)
        case Err(e) => Fail(e)
        case Ok(len) =>
          if len != n then Fail(AssertionError(Failure([Lit("Length of: "), ReprOf(h.actual), Lit(" was not equal to: "), ReprOf(expected)])))
          else Pass
  }

  function HasSameIdentityAs(h: BaseHandler, other: Value): (r: Check)
    ensures r.Pass? <==> Is(h.actual, other)
    ensures r.Fail? ==> r.error == AssertionError(Failure([StrOf(h.actual), Lit(" does not share identity with: "), StrOf(other)]))
  {
    if !Is(h.actual, other) then Fails([StrOf(h.actual), Lit(" does not share identity with: "), StrOf(other)]) else Pass
  }

  function DoesNotHaveSameIdentityAs(h: BaseHandler, other: Value): (r: Check)
    ensures r.Pass? <==> !Is(h.actual, other)
    ensures r.Fail? ==> r.error == AssertionError(Failure([StrOf(h.actual), Lit(" shares identity with: "), StrOf(other)]))
  {
    if Is(h.actual, other) then Fails([StrOf(h.actual), Lit(" shares identity with: "), StrOf(other)]) else Pass
  }

  /** Identity is stronger than equality: whatever passes the identity check
      passes the equality check, but not conversely (`1 == 1.0`, yet they are
      different objects). */
  lemma IdentityImpliesEquality(h: BaseHandler, other: Value)
    ensures HasSameIdentityAs(h, other).Pass? ==> IsEqualTo(h, other).Pass?
    ensures HasSameIdentityAs(h, other).Pass? != DoesNotHaveSameIdentityAs(h, other).Pass?
  {
    if Is(h.actual, other) {
      IsImpliesPyEq(h.actual, other);
    }
  }

  lemma EqualityDoesNotImplyIdentity()
    ensures IsEqualTo(BaseHandler(Int(1)), Float(1.0)).Pass?
    ensures HasSameIdentityAs(BaseHandler(Int(1)), Float(1.0)).Fail?
  {
  }

  /** Two separately built lists with the same items are equal but are
      different objects, so `[] is []` fails. */
  lemma SeparateListsAreDistinct(a: nat, b: nat, xs: seq<Value>)
    requires a != b
    ensures IsEqualTo(BaseHandler(List(a, xs)), List(b, xs)).Pass?
    ensures HasSameIdentityAs(BaseHandler(List(a, xs)), List(b, xs)).Fail?
    ensures DoesNotHaveSameIdentityAs(BaseHandler(List(a, xs)), List(b, xs)).Pass?
  {
    forall i | 0 <= i < |xs| ensures PyEq(xs[i], xs[i]) {
      PyEqReflexive(xs[i]);
    }
  }

  function IsNone(h: BaseHandler): (r: Check)
    ensures r.Pass? <==> h.actual == NoneV
    ensures r.Fail? ==> r.error == AssertionError(Failure([StrOf(h.actual), Lit(" is not None")]))
  {
    if h.actual != NoneV then Fails([StrOf(h.actual), Lit(" is not None")]) else Pass
  }

  function IsNotNone(h: BaseHandler): (r: Check)
    ensures r.Pass? <==> h.actual != NoneV
    ensures r.Fail? ==> r.error == AssertionError(Failure([StrOf(h.actual), Lit(" is None")]))
  {
    if h.actual == NoneV then Fails([StrOf(h.actual), Lit(" is None")]) else Pass
  }

  /** `None` is a singleton, so the `None` checks are identity checks against it,
      and they are exact complements. */
  lemma NoneChecksAreIdentity(h: BaseHandler)
    ensures IsNone(h).Pass? == HasSameIdentityAs(h, NoneV).Pass?
    ensures IsNotNone(h).Pass? == DoesNotHaveSameIdentityAs(h, NoneV).Pass?
    ensures IsNone(h).Pass? != IsNotNone(h).Pass?
  {
  }
}

=== FILE: builtins.dfy ===
/**
 * The Python built-ins the core calls on the wrapped value and the errors they
 * raise: `len`, subscription with a string key, `getattr` and calling a
 * callable without arguments.
 */
module Builtins {

  import opened Wrappers
  import opened Values
  import opened Messages

  /** `len(v)`; a value without `__len__` raises `TypeError`. */
  function Len(v: Value): (r: Result<nat, Exception>)
    ensures r.Ok? <==> Size(v).Some?
    ensures r.Ok? ==> r.value == Size(v).value
    ensures r.Err? ==> r.error.TypeError?
  {
    match Size(v)
    case Some(n) => Ok(n)
    case None => Err(TypeError(Plain("object of type '" + TypeName(v) + "' has no len()")))
  }

  /** The value stored under `key` in a dict, the first entry with that key. */
  function DictGet(es: seq<(string, Value)>, key: string): (r: Option<Value>)
    ensures r.Some? <==> key in KeySet(es)
    ensures r.Some? ==> exists i :: 0 <= i < |es| && es[i] == (key, r.value) && key !in KeySet(es[..i])
  {
    if es == [] then None
    else if es[0].0 == key then
      assert es[..0] == [];
      Some(es[0].1)
    else
      assert KeySet(es) == {es[0].0} + KeySet(es[1..]);
      var r := DictGet(es[1..], key);
      assert forall i :: 0 <= i < |es[1..]| ==> es[1..][..i] == es[1..i + 1] && es[..i + 1] == [es[0]] + es[1..i + 1];
      r
  }

  /** `v[key]` for a string key. Only a dict can be indexed by a string;
      strings, tuples and lists raise `TypeError`, a missing key `KeyError`. */
  function GetItem(v: Value, key: string): (r: Result<Value, Exception>)
    ensures r.Ok? <==> v.Dict? && key in KeySet(v.entries)
    ensures r.Err? && v.Dict? ==> r.error == KeyError([ReprOf(Str(key))])
    ensures r.Err? && !v.Dict? ==> r.error.TypeError?
  {
    match v
    case Dict(_, es) =>
      (match DictGet(es, key)
       case Some(x) => Ok(x)
       case None => Err(KeyError([ReprOf(Str(key))])))
    case Str(_) => Err(TypeError(Plain("string indices must be integers")))
    case Tuple(_) => Err(TypeError(Plain("tuple indices must be integers or slices, not str")))
    case Record(_, _) => Err(TypeError(Plain("tuple indices must be integers or slices, not str")))
    case List(_, _) => Err(TypeError(Plain("list indices must be integers or slices, not str")))
    case _ => Err(TypeError(Plain("'" + TypeName(v) + "' object is not subscriptable")))
  }

  /** `getattr(v, name)`; a missing attribute raises `AttributeError`. */
  function GetAttr(v: Value, name: string): (r: Result<Value, Exception>)
    ensures r.Ok? <==> HasAttr(v, name)
    ensures r.Ok? ==> Some(r.value) == AttrOf(v, name)
    ensures r.Err? ==> r.error.AttributeError?
  {
    match AttrOf(v, name)
    case Some(x) => Ok(x)
    case None => Err(AttributeError(Plain("'" + TypeName(v) + "' object has no attribute '" + name + "'")))
  }

  /** `v()` for a callable: a zero-argument callable returns its result, one
      with required parameters raises `TypeError`. */
  function CallNoArgs(v: Value): (r: Result<Value, Exception>)
    requires IsCallable(v)
    ensures r.Ok? <==> v.Thunk0?
    ensures r.Ok? ==> r.value == v.result
    ensures r.Err? ==> r.error.TypeError?
  {
    match v
    case Thunk0(_, x) => Ok(x)
    case ThunkN(_, n) =>
      Err(TypeError([Lit("missing "), StrOf(Int(n)), Lit(" required positional argument(s)")]))
  }
}

=== FILE: dynamic.dfy ===
/**
 * The dynamic `<key>_is(expected)` checks. `Asserto.__getattr__` is reached
 * for any name the session does not otherwise have: it classifies the wrapped
 * value, decides up front whether the key is missing, and returns a callable;
 * the call reports a missing key, checks its arity, looks the key up (by
 * attribute or by subscript), resolves a zero-argument callable, and compares.
 */
module Dynamic {

  import opened Wrappers
  import opened Values
  import opened Messages
  import opened Session
  import Builtins
  import Util

  /** What `__getattr__` captures in the callable it returns: the key, the
      classification of the value and the failure found at lookup, if any. */
  datatype Probe = Probe(key: string, recordLike: bool, mappingLike: bool, failure: Option<Text>)
  {
    /** The value is looked up with `actual[key]` rather than `getattr`: a
        record-like value is always probed by attribute, even though a
        namedtuple is also iterable and subscriptable. */
    predicate Keyed()
    {
      !recordLike && mappingLike
    }
  }

  /** The name ends in `_is`. */
  predicate IsProbeName(item: string)
  {
    |item| >= 3 && item[|item| - 3..] == "_is"
  }

  /** `isinstance(actual, Iterable) and hasattr(actual, "__getitem__")`. */
  predicate MappingLike(actual: Value)
  {
    Values.IsIterable(actual) && HasGetItem(actual)
  }

  /** The failure recorded at lookup: none when the value has the attribute;
      for a keyed value, "missing key" when `key in actual` is false; for
      anything else, "missing attribute". */
  function MissingFailure(actual: Value, key: string, recordLike: bool): (r: Option<Text>)
    ensures r.None? <==> HasAttr(actual, key) || (!recordLike && MappingLike(actual) && ContainsKey(actual, key))
    ensures r.Some? && !recordLike && MappingLike(actual) ==> r.value == [ReprOf(actual), Lit(" missing key: " + key)]
    ensures r.Some? && !(!recordLike && MappingLike(actual)) ==> r.value == [ReprOf(actual), Lit(" missing attribute: " + key)]
  {
    if HasAttr(actual, key) then None
    else if !recordLike && MappingLike(actual) then
      if !ContainsKey(actual, key) then Some([ReprOf(actual), Lit(" missing key: " + key)]) else None
    else Some([ReprOf(actual), Lit(" missing attribute: " + key)])
  }

  /** `__getattr__(item)`: a name not ending in `_is` raises `AttributeError`;
      otherwise the key is the name without its last three characters. The
      namedtuple test can itself raise (see `Util.IsNamedTupleLike`). */
  function GetAttrFallback(actual: Value, item: string): (r: Result<Probe, Exception>)
    ensures !IsProbeName(item) ==> r == Err(AttributeError(Plain("unknown assertion method: " + item)))
    ensures IsProbeName(item) ==> (r.Ok? <==> Util.IsNamedTupleLike(actual).Ok?)
    ensures r.Ok? ==> r.value.key + "_is" == item
    ensures r.Ok? ==> r.value.recordLike == Util.IsNamedTupleLike(actual).value
    ensures r.Ok? ==> r.value.mappingLike == MappingLike(actual)
    ensures r.Ok? ==> r.value.failure == MissingFailure(actual, r.value.key, r.value.recordLike)
  {
    if !IsProbeName(item) then Err(AttributeError(Plain("unknown assertion method: " + item)))
    else
      var key := item[..|item| - 3];
      assert key + "_is" == item;
      match Util.IsNamedTupleLike(actual)
      case Err(e) => Err(e)
      case Ok(recordLike) => Ok(Probe(key, recordLike, MappingLike(actual), MissingFailure(actual, key, recordLike)))
  }

  /** Every `<key>_is` name yields a probe for exactly `key`. */
  lemma ProbeKeyIsNameWithoutSuffix(actual: Value, key: string)
    requires Util.IsNamedTupleLike(actual).Ok?
    ensures GetAttrFallback(actual, key + "_is").Ok?
    ensures GetAttrFallback(actual, key + "_is").value.key == key
  {
    var item := key + "_is";
    assert item[|item| - 3..] == "_is";
    var k := GetAttrFallback(actual, item).value.key;
    assert k + "_is" == key + "_is";
    assert k == (k + "_is")[..|k|];
  }

  /** A namedtuple is probed by attribute although it is iterable and subscriptable. */
  lemma RecordProbedByAttribute(cls: string, fs: seq<(string, Value)>, item: string)
    requires IsProbeName(item)
    ensures GetAttrFallback(Record(cls, fs), item).Ok?
    ensures GetAttrFallback(Record(cls, fs), item).value.mappingLike
    ensures !GetAttrFallback(Record(cls, fs), item).value.Keyed()
  {
    Util.RecordIsNamedTupleLike(cls, fs);
  }

  /** A dict is probed by key. */
  lemma DictProbedByKey(id: nat, es: seq<(string, Value)>, item: string)
    requires IsProbeName(item)
    ensures GetAttrFallback(Dict(id, es), item).Ok?
    ensures GetAttrFallback(Dict(id, es), item).value.Keyed()
  {
    Util.BuiltinsAreNotNamedTupleLike(Dict(id, es));
  }

  /** The message of the arity `TypeError`. */
  function ArityMessage(args: seq<Value>): Text
  {
    [Lit("Dynamic assertion takes 1 argument but "), StrOf(Int(|args|)), Lit(" was given. "), StrOf(Tuple(args))]
  }

  /** The message of `DynamicCallableWithArgsError`. */
  function ArgsMessage(key: string): Text
  {
    Plain(key + " expects arguments, this is not supported")
  }

  /** The value the callable compares: `actual[key]` or `getattr(actual, key)`,
      called with no arguments when callable; a call that needs arguments is
      reported as `DynamicCallableWithArgsError`. */
  function Resolve(actual: Value, p: Probe): (r: Result<Value, Exception>)
    ensures var found := if p.Keyed() then Builtins.GetItem(actual, p.key) else Builtins.GetAttr(actual, p.key);
            && (found.Err? ==> r == Err(found.error))
            && (found.Ok? && !IsCallable(found.value) ==> r == Ok(found.value))
            && (found.Ok? && found.value.Thunk0? ==> r == Ok(found.value.result))
            && (found.Ok? && found.value.ThunkN? ==>
                  r == Err(DynamicCallableWithArgsError(ArgsMessage(p.key))))
  {
    var found := if p.Keyed() then Builtins.GetItem(actual, p.key) else Builtins.GetAttr(actual, p.key);
    match found
    case Err(e) => Err(e)
    case Ok(v) =>
      if !IsCallable(v) then Ok(v)
      else
        match Builtins.CallNoArgs(v)
        case Ok(x) => Ok(x)
        case Err(_) => Err(DynamicCallableWithArgsError(ArgsMessage(p.key)))
  }

  /** The message reported when the resolved value differs from the argument. */
  function NotEqualMessage(lookup: Value, expected: Value): Text
  {
    [StrOf(lookup), Lit(" was not equal to: "), StrOf(expected)]
  }

  /** The tail of the call, once any recorded failure has been dealt with. */
  function Compare(s: Asserto, p: Probe, args: seq<Value>): (r: Step<Asserto>)
    ensures |args| != 1 ==> r == Threw(s, TypeError(ArityMessage(args)))
    ensures |args| == 1 && Resolve(s.actual, p).Err? ==> r == Threw(s, Resolve(s.actual, p).error)
    ensures |args| == 1 && Resolve(s.actual, p).Ok? && PyEq(Resolve(s.actual, p).value, args[0]) ==> r == Done(s)
    ensures |args| == 1 && Resolve(s.actual, p).Ok? && !PyEq(Resolve(s.actual, p).value, args[0]) ==>
              Reported(s, r, FailureOf(s, NotEqualMessage(Resolve(s.actual, p).value, args[0])))
  {
    if |args| != 1 then Threw(s, TypeError(ArityMessage(args)))
    else
      match Resolve(s.actual, p)
      case Err(e) => Threw(s, e)
      case Ok(lookup) =>
        if !PyEq(lookup, args[0]) then Error(s, NotEqualMessage(lookup, args[0])) else Done(s)
  }

  /** Calling the returned callable: it always marks the session triggered; a
      failure recorded at lookup is reported first (raised in hard mode; in
      soft mode stored, after which the call carries on); then the arity is
      checked and the value compared. */
  function Invoke(s: Asserto, p: Probe, args: seq<Value>): (r: Step<Asserto>)
    ensures r.state.triggered
    ensures r.state.actual == s.actual && r.state.reason == s.reason && r.state.soft == s.soft
    ensures p.failure.Some? && !s.soft ==>
              r == Threw(s.(triggered := true), AssertionError(FailureOf(s, p.failure.value)))
    ensures p.failure.Some? && s.soft ==>
              s.Failures() + [FailureOf(s, p.failure.value)] <= r.state.Failures()
    ensures p.failure.Some? && s.soft ==>
              r == Compare(Error(s.(triggered := true), p.failure.value).state, p, args)
    ensures p.failure.None? ==> r == Compare(s.(triggered := true), p, args)
  {
    var s1 := s.(triggered := true);
    match p.failure
    case None => Compare(s1, p, args)
    case Some(f) =>
      match Error(s1, f)
      case Threw(s2, e) => Threw(s2, e)
      case Done(s2) =>
        var r := Compare(s2, p, args);
        assert s2.Failures() <= r.state.Failures();
        r
  }

  /** An attribute of a plain object is compared. */
  lemma ProbeExampleObject()
    ensures var a := Obj(1, "Dynamic", [OtherBase("object")], map["a" := Int(10), "b" := Int(20)]);
            var p := GetAttrFallback(a, "a_is");
            p.Ok? && Invoke(New(a), p.value, [Int(10)]) == Done(New(a).(triggered := true))
  {
    var a := Obj(1, "Dynamic", [OtherBase("object")], map["a" := Int(10), "b" := Int(20)]);
    assert "a" + "_is" == "a_is";
    assert Util.IsNamedTupleLike(a) == Ok(false);
    ProbeKeyIsNameWithoutSuffix(a, "a");
  }

  /** A dict is probed by key. */
  lemma ProbeExampleDict()
    ensures var d := Dict(0, [("foo", Int(10))]);
            var p := GetAttrFallback(d, "foo_is");
            p.Ok? && Invoke(New(d), p.value, [Int(10)]) == Done(New(d).(triggered := true))
  {
    var d := Dict(0, [("foo", Int(10))]);
    assert "foo" + "_is" == "foo_is";
    Util.BuiltinsAreNotNamedTupleLike(d);
    ProbeKeyIsNameWithoutSuffix(d, "foo");
    DictProbedByKey(0, [("foo", Int(10))], "foo_is");
    var p := GetAttrFallback(d, "foo_is").value;
    var es := [("foo", Int(10))];
    assert es[0].0 == "foo";
    assert "foo" in KeySet(es);
    assert p.failure.None?;
    assert Builtins.DictGet([("foo", Int(10))], "foo") == Some(Int(10));
    assert Resolve(d, p) == Ok(Int(10));
  }

  /** A namedtuple is probed by field. */
  lemma ProbeExampleRecord()
    ensures var t := Record("foo", [("baz", Int(1337))]);
            var p := GetAttrFallback(t, "baz_is");
            p.Ok? && Invoke(New(t), p.value, [Int(1337)]) == Done(New(t).(triggered := true))
  {
    var t := Record("foo", [("baz", Int(1337))]);
    assert "baz" + "_is" == "baz_is";
    Util.RecordIsNamedTupleLike("foo", [("baz", Int(1337))]);
    ProbeKeyIsNameWithoutSuffix(t, "baz");
    assert FieldNames([("baz", Int(1337))]) == ["baz"];
  }

  /** A zero-argument method is called and its result compared. */
  lemma ProbeExampleMethod()
    ensures var c := Obj(2, "C", [OtherBase("object")], map["ok" := Thunk0(3, Int(10))]);
            var p := GetAttrFallback(c, "ok_is");
            p.Ok? && Invoke(New(c), p.value, [Int(10)]) == Done(New(c).(triggered := true))
  {
    var c := Obj(2, "C", [OtherBase("object")], map["ok" := Thunk0(3, Int(10))]);
    assert "ok" + "_is" == "ok_is";
    assert Util.IsNamedTupleLike(c) == Ok(false);
    ProbeKeyIsNameWithoutSuffix(c, "ok");
  }

  /** A method that needs arguments is reported as unsupported. */
  lemma ProbeExampleCallableWithArgs()
    ensures var c := Obj(1, "C", [OtherBase("object")], map["bound_with_args" := ThunkN(2, 1)]);
            var p := GetAttrFallback(c, "bound_with_args_is");
            p.Ok? && Invoke(New(c), p.value, [Int(10)]) ==
              Threw(New(c).(triggered := true),
                    DynamicCallableWithArgsError(ArgsMessage("bound_with_args"))) &&
              Invoke(New(c), p.value, [Int(10)]).error.IsTypeError()
  {
    var c := Obj(1, "C", [OtherBase("object")], map["bound_with_args" := ThunkN(2, 1)]);
    var key := "bound_with_args";
    assert key + "_is" == "bound_with_args_is";
    assert Util.IsNamedTupleLike(c) == Ok(false);
    ProbeKeyIsNameWithoutSuffix(c, key);
    var p := GetAttrFallback(c, key + "_is").value;
    assert p.key == key && !p.Keyed();
    assert MissingFailure(c, key, false) == None;
    assert Builtins.GetAttr(c, key) == Ok(ThunkN(2, 1));
    assert Resolve(c, p) == Err(DynamicCallableWithArgsError(ArgsMessage(key)));
  }

  /** A missing attribute is raised at the call, in hard mode with no reason set. */
  lemma ProbeExampleMissingAttribute()
    ensures var e := Obj(3, "Dynamic", [OtherBase("object")], map[]);
            var p := GetAttrFallback(e, "a_is");
            p.Ok? && Invoke(New(e), p.value, [Int(10)]) ==
              Threw(New(e).(triggered := true), AssertionError(Failure([ReprOf(e), Lit(" missing attribute: a")])))
  {
    var e := Obj(3, "Dynamic", [OtherBase("object")], map[]);
    assert "a_is"[..1] == "a";
    assert Util.IsNamedTupleLike(e) == Ok(false);
    assert " missing attribute: " + "a" == " missing attribute: a";
    var p := GetAttrFallback(e, "a_is").value;
    assert p == Probe("a", false, false, Some([ReprOf(e), Lit(" missing attribute: a")]));
  }

  /** A differing value is reported with both values. */
  lemma ProbeExampleWrongValue()
    ensures var n := Obj(4, "Dynamic", [OtherBase("object")], map["a" := Int(9)]);
            var p := GetAttrFallback(n, "a_is");
            p.Ok? && Invoke(New(n), p.value, [Int(10)]) ==
              Threw(New(n).(triggered := true), AssertionError(Failure(NotEqualMessage(Int(9), Int(10)))))
  {
    var n := Obj(4, "Dynamic", [OtherBase("object")], map["a" := Int(9)]);
    assert "a_is"[..1] == "a";
    assert Util.IsNamedTupleLike(n) == Ok(false);
    var p := GetAttrFallback(n, "a_is").value;
    assert p == Probe("a", false, false, None);
    assert Resolve(n, p) == Ok(Int(9));
  }

  /** Two arguments are refused, and a name without the suffix is not a check. */
  lemma ProbeExampleArity()
    ensures var d := Dict(0, [("a", Int(1))]);
            var p := GetAttrFallback(d, "a_is");
            p.Ok? && Invoke(New(d), p.value, [Int(1), Int(2)]) ==
              Threw(New(d).(triggered := true), TypeError(ArityMessage([Int(1), Int(2)])))
    ensures GetAttrFallback(Bool(true), "not_ends_with") == Err(AttributeError(Plain("unknown assertion method: not_ends_with")))
  {
    var d := Dict(0, [("a", Int(1))]);
    assert "a_is"[..1] == "a";
    assert "not_ends_with"[10..] != "_is";
    assert "unknown assertion method: " + "not_ends_with" == "unknown assertion method: not_ends_with";
    assert Builtins.DictGet([("a", Int(1))], "a") == Some(Int(1));
    assert Util.IsNamedTupleLike(d) == Ok(false);
    assert ContainsKey(d, "a");
  }

  /** In soft mode a missing key is stored as a failure at the call, and the
      call then still raises the `KeyError` of the subscript that follows. */
  lemma SoftMissingKeyStillRaises(id: nat, es: seq<(string, Value)>, key: string, expected: Value)
    requires key !in KeySet(es)
    ensures var s := Enter(New(Dict(id, es)));
            var p := GetAttrFallback(Dict(id, es), key + "_is");
            p.Ok? &&
            var r := Invoke(s, p.value, [expected]);
            r.Threw? && r.error == KeyError([ReprOf(Str(key))]) &&
            r.state.Failures() == [FailureOf(s, [ReprOf(Dict(id, es)), Lit(" missing key: " + key)])]
  {
    ProbeKeyIsNameWithoutSuffix(Dict(id, es), key);
    DictProbedByKey(id, es, key + "_is");
  }
}

=== FILE: error_handling.dfy ===
/**
 * `ErrorHandler`: builds the `AssertionError` for a failure and either raises
 * it (hard mode) or stores it (soft mode), and raises the collected failures
 * when a soft scope closes.
 */
module ErrorHandling {

  import opened Wrappers
  import opened Messages
  import opened Messaging
  import opened Softly

  datatype ErrorHandler = ErrorHandler(contextFailures: AssertionErrorContainer)

  /** A new handler holds no failures. */
  function NewErrorHandler(): (h: ErrorHandler)
    ensures !h.contextFailures.Bool()
  {
    ErrorHandler(Empty())
  }

  /** `reset`: the container is emptied. */
  function Reset(h: ErrorHandler): (h': ErrorHandler)
    ensures h'.contextFailures.Len() == 0
  {
    ErrorHandler(h.contextFailures.Clear())
  }

  /** What a failing check hands over: an `AssertionError` already built, or a message. */
  datatype Cause = Built(failure: Failure) | Message(text: Text)

  /** `build_assertion_error`: the description when truthy, the cause otherwise,
      prefixed with `[category] ` whenever a category is given, even an empty
      one, and even when the description replaced the cause. */
  function BuildAssertionError(cause: Text, description: Option<string>, category: Option<string>): (f: Failure)
    ensures IsTruthy(description) ==> 0 < |f.message| <= 2 && f.message[|f.message| - 1] == Lit(description.value)
    ensures !IsTruthy(description) ==> |f.message| >= |cause| && f.message[|f.message| - |cause|..] == cause
    ensures category.Some? ==> 0 < |f.message| && f.message[0] == Lit("[" + category.value + "] ")
    ensures category.None? ==> f.message == (if IsTruthy(description) then Plain(description.value) else cause)
  {
    var message := if IsTruthy(description) then Plain(description.value) else cause;
    Failure(if category.None? then message else Plain("[" + category.value + "] ") + message)
  }

  /** A given category only adds its prefix: the rest of the message is what
      the same cause and description give without a category. */
  lemma BuildPrefixesCategory(cause: Text, description: Option<string>, category: Option<string>)
    requires category.Some?
    ensures BuildAssertionError(cause, description, category).message ==
            Plain("[" + category.value + "] ") + BuildAssertionError(cause, description, None).message
  {
  }

  /** The failure `check_should_raise` acts on: a built error passes through
      unchanged, only a message is formatted. */
  function ErrorOf(cause: Cause, description: Option<string>, category: Option<string>): (f: Failure)
    ensures cause.Built? ==> f == cause.failure
  {
    match cause
    case Built(e) => e
    case Message(t) => BuildAssertionError(t, description, category)
  }

  /** `check_should_raise`: in soft mode the failure is stored last and nothing
      is raised; in hard mode it is raised and nothing is stored. */
  function CheckShouldRaise(h: ErrorHandler, softly: bool, cause: Cause, description: Option<string>, category: Option<string>): (r: Step<ErrorHandler>)
    ensures r.Done? <==> softly
    ensures softly ==> r.state.contextFailures.errors == h.contextFailures.errors + [ErrorOf(cause, description, category)]
    ensures !softly ==> r.state == h && r.error == AssertionError(ErrorOf(cause, description, category))
  {
    var error := ErrorOf(cause, description, category);
    if softly then Done(ErrorHandler(h.contextFailures.Store(error)))
    else Threw(h, AssertionError(error))
  }

  /** `check_soft_raise`: raises one `AssertionError` carrying every stored
      failure exactly when some are stored, and leaves the container as it was. */
  function CheckSoftRaise(h: ErrorHandler): (r: Step<ErrorHandler>)
    ensures r.state == h
    ensures r.Threw? <==> h.contextFailures.Bool()
    ensures r.Threw? ==> r.error.SoftAssertionError? && r.error.errors == h.contextFailures.errors
    ensures r.Threw? ==> LeadingCount(r.error.summary) == |h.contextFailures.errors|
  {
    if h.contextFailures.Bool() then
      Threw(h, SoftAssertionError(h.contextFailures.Summary(), h.contextFailures.errors))
    else Done(h)
  }

  /** `Reason.format` and `build_assertion_error` agree except on an empty
      category, which the first treats as unset and the second prefixes as `[] `. */
  lemma FormatAgreesWithBuild(cause: Text, description: Option<string>, category: Option<string>)
    ensures (Format(Reason(category, description), cause) == BuildAssertionError(cause, description, category).message)
        <==> category != Some("")
  {
    var f := Format(Reason(category, description), cause);
    var b := BuildAssertionError(cause, description, category).message;
    if category == Some("") {
      assert |b| == |f| + 1;
    }
  }
}

=== FILE: handler.dfy ===
/**
 * `Handler`, the base class of the numeric and generic handlers. It defines
 * no `__init__` of its own, so a subclass constructor's
 * `super().__init__(actual)` reaches `object.__init__`.
 */
module Handlers {

  import opened Wrappers
  import opened Values
  import opened Messages

  /** `object.__init__(self, *args)`: it takes no argument besides the instance,
      so any argument raises `TypeError`. */
  function ObjectInit(args: seq<Value>): (r: Option<Exception>)
    ensures r.None? <==> args == []
    ensures r.Some? ==> r.value.TypeError?
  {
    if args == [] then None
    else Some(TypeError(Plain("object.__init__() takes exactly one argument (the instance to initialize)")))
  }
}

=== FILE: messages.dfy ===
/**
 * Failure messages, exceptions and the outcome of a step that may raise.
 *
 * A message is a sequence of pieces: literal text, or a value rendered with
 * `str` or `repr` at that position. Rendering values is Python's business and
 * is not modelled; which value goes where, and all literal text, is.
 */
module Messages {

  import opened Wrappers
  import opened Values

  datatype Piece = Lit(text: string) | StrOf(value: Value) | ReprOf(value: Value)

  type Text = seq<Piece>

  /** A message made of one literal string. */
  function Plain(s: string): Text
  {
    [Lit(s)]
  }

  /** The string a message spells when every piece is literal. */
  function Literal(t: Text): (r: Option<string>)
    ensures r.Some? <==> forall i :: 0 <= i < |t| ==> t[i].Lit?
  {
    if t == [] then Some("")
    else if !t[0].Lit? then None
    else match Literal(t[1..])
      case Some(rest) => Some(t[0].text + rest)
      case None => None
  }

  lemma LiteralPlain(s: string)
    ensures Literal(Plain(s)) == Some(s)
  {
    assert Plain(s)[1..] == [];
    assert s + "" == s;
  }

  lemma {:induction false} LiteralConcat(a: Text, b: Text)
    requires Literal(a).Some? && Literal(b).Some?
    ensures Literal(a + b) == Some(Literal(a).value + Literal(b).value)
    decreases |a|
  {
    if a == [] {
      assert a + b == b;
      assert Literal(a).value + Literal(b).value == Literal(b).value;
    } else {
      assert (a + b)[0] == a[0] && (a + b)[1..] == a[1..] + b;
      LiteralConcat(a[1..], b);
      var x, y, z := a[0].text, Literal(a[1..]).value, Literal(b).value;
      assert Literal(a + b) == Some(x + (y + z));
      assert x + (y + z) == (x + y) + z;
    }
  }

  /** One `AssertionError` instance and the message it carries. */
  datatype Failure = Failure(message: Text)

  /** The exceptions the core raises. `SoftAssertionError` is the single
      `AssertionError` raised when a soft scope closes: its message is the
      summary line followed by the stored failures. */
  datatype Exception =
    | AssertionError(failure: Failure)
    | SoftAssertionError(summary: string, errors: seq<Failure>)
    | KeyError(message: Text)
    | TypeError(message: Text)
    | ValueError(message: Text)
    | AttributeError(message: Text)
    | IndexError(message: Text)
    | ExpectedTypeError(message: Text)
    | DynamicCallableWithArgsError(message: Text)
  {
    /** Both kinds of `AssertionError`: a test outcome rather than a usage error. */
    predicate IsAssertion()
    {
      AssertionError? || SoftAssertionError?
    }

    /** An instance of `TypeError`: the built-in one and the two raised by the
        session, `ExpectedTypeError` (a `TypeError` subclass in `_exceptions.py`)
        and `DynamicCallableWithArgsError`, which callers catch as `TypeError`. */
    predicate IsTypeError()
    {
      TypeError? || ExpectedTypeError? || DynamicCallableWithArgsError?
    }
  }

  /** A step over state `S` that either returned or raised; the state is the
      one left behind either way, since Python keeps mutations made before a raise. */
  datatype Step<+S> = Done(state: S) | Threw(state: S, error: Exception)

  /** The outcome of a handler check that returns nothing: it passed, or it raised. */
  datatype Check = Pass | Fail(error: Exception)

  /** The decimal digits of `n`, as `str(n)` writes them. */
  function DecimalNat(n: nat): (r: string)
    ensures |r| > 0
    ensures forall i :: 0 <= i < |r| ==> '0' <= r[i] <= '9'
    ensures r[0] == '0' ==> n == 0
  {
    if n < 10 then [DigitChar(n)] else DecimalNat(n / 10) + [DigitChar(n % 10)]
  }

  function DigitChar(d: nat): (c: char)
    requires d < 10
    ensures '0' <= c <= '9' && (c as int) - ('0' as int) == d
  {
    (('0' as int) + d) as char
  }

  /** The number a run of decimal digits stands for. */
  function DigitsValue(s: string): nat
    requires forall i :: 0 <= i < |s| ==> '0' <= s[i] <= '9'
  {
    if s == [] then 0
    else 10 * DigitsValue(s[..|s| - 1]) + ((s[|s| - 1] as int) - ('0' as int))
  }

  /** Reading the digits back gives the number: `int(str(n)) == n`. */
  lemma {:induction false} DecimalRoundTrip(n: nat)
    ensures DigitsValue(DecimalNat(n)) == n
  {
    if n >= 10 {
      var r := DecimalNat(n);
      assert r[..|r| - 1] == DecimalNat(n / 10);
      DecimalRoundTrip(n / 10);
    }
  }

  /** The first line of a soft-failure report: `"<n> Soft Assertion Failures\n"`. */
  function SummaryLine(n: nat): string
  {
    DecimalNat(n) + " Soft Assertion Failures\n"
  }

  /** The count a summary line starts with: the digits before the first space. */
  function LeadingCount(s: string): nat
  {
    DigitsValue(LeadingDigits(s))
  }

  function LeadingDigits(s: string): (r: string)
    ensures r <= s
    ensures forall i :: 0 <= i < |r| ==> '0' <= r[i] <= '9'
    ensures |r| < |s| ==> !('0' <= s[|r|] <= '9')
  {
    if s == [] || !('0' <= s[0] <= '9') then [] else [s[0]] + LeadingDigits(s[1..])
  }

  /** The summary line of a report of `n` failures states `n`. */
  lemma SummaryLineStatesCount(n: nat)
    ensures LeadingCount(SummaryLine(n)) == n
    ensures LeadingDigits(SummaryLine(n)) == DecimalNat(n)
    ensures SummaryLine(n) == LeadingDigits(SummaryLine(n)) + " Soft Assertion Failures\n"
  {
    var d := DecimalNat(n);
    var s := SummaryLine(n);
    LeadingDigitsOfDigits(d, " Soft Assertion Failures\n");
    DecimalRoundTrip(n);
  }

  lemma {:induction false} LeadingDigitsOfDigits(d: string, rest: string)
    requires forall i :: 0 <= i < |d| ==> '0' <= d[i] <= '9'
    requires rest != [] && !('0' <= rest[0] <= '9')
    ensures LeadingDigits(d + rest) == d
    decreases |d|
  {
    if d != [] {
      assert (d + rest)[1..] == d[1..] + rest;
      LeadingDigitsOfDigits(d[1..], rest);
    } else {
      assert d + rest == rest;
    }
  }
}

=== FILE: messaging.dfy ===
/**
 * `Reason`, which turns a generated failure reason into the final message, and
 * `ComposedFailure`, an ordered record of failures kept in a soft scope.
 */
module Messaging {

  import opened Wrappers
  import opened Values
  import opened Messages

  /** Python truthiness of an optional string: set and non-empty. */
  predicate IsTruthy(o: Option<string>)
  {
    o.Some? && o.value != ""
  }

  /** The category and description a session attaches to its failures. */
  datatype Reason = Reason(category: Option<string>, description: Option<string>)

  /** `Reason.format`: a truthy description replaces the reason; a truthy
      category is then put in front as `[category] `, description or not. */
  function Format(r: Reason, reason: Text): (out: Text)
    ensures IsTruthy(r.description) ==> 0 < |out| && out[|out| - 1] == Lit(r.description.value) && |out| <= 2
    ensures !IsTruthy(r.description) ==> |out| >= |reason| && out[|out| - |reason|..] == reason
    ensures IsTruthy(r.category) ==> 0 < |out| && out[0] == Lit("[" + r.category.value + "] ")
    ensures !IsTruthy(r.category) ==> out == (if IsTruthy(r.description) then Plain(r.description.value) else reason)
  {
    var message := if IsTruthy(r.description) then Plain(r.description.value) else reason;
    if IsTruthy(r.category) then Plain("[" + r.category.value + "] ") + message else message
  }

  /** Once a description is set, the generated reason has no effect on the message. */
  lemma FormatIgnoresReasonUnderDescription(r: Reason, a: Text, b: Text)
    requires IsTruthy(r.description)
    ensures Format(r, a) == Format(r, b)
  {
  }

  /** A truthy category only adds its prefix: the rest of the message is what
      the same reason gives without a category. */
  lemma FormatPrefixesCategory(r: Reason, reason: Text)
    requires IsTruthy(r.category)
    ensures Format(r, reason) == Plain("[" + r.category.value + "] ") + Format(Reason(None, r.description), reason)
  {
  }

  /** The three cases the library's own tests pin down, as literal strings. */
  lemma FormatExamples()
    ensures Literal(Format(Reason(Some("cat_no_desc"), None), Plain("reason"))) == Some("[cat_no_desc] reason")
    ensures Literal(Format(Reason(Some("cat"), Some("desc")), Plain("reason"))) == Some("[cat] desc")
    ensures Literal(Format(Reason(None, None), Plain("reason"))) == Some("reason")
  {
    assert "[" + "cat_no_desc" + "] " == "[cat_no_desc] ";
    assert "[" + "cat" + "] " == "[cat] ";
    assert "[cat_no_desc] " + "reason" == "[cat_no_desc] reason";
    assert "[cat] " + "desc" == "[cat] desc";
    LiteralPlain("[cat_no_desc] ");
    LiteralPlain("[cat] ");
    LiteralPlain("reason");
    LiteralPlain("desc");
    LiteralConcat(Plain("[cat_no_desc] "), Plain("reason"));
    LiteralConcat(Plain("[cat] "), Plain("desc"));
  }

  /** `ComposedFailure`: failures registered in order; truthy once one is registered. */
  datatype ComposedFailure = ComposedFailure(errors: seq<Failure>)
  {
    function RegisterError(e: Failure): (c: ComposedFailure)
      ensures |c.errors| == |errors| + 1
      ensures c.errors[..|errors|] == errors && c.errors[|errors|] == e
    {
      ComposedFailure(errors + [e])
    }

    predicate Bool()
    {
      errors != []
    }

    /** The first line of `repr`: the number of failures registered. */
    function Summary(): (s: string)
      ensures s == LeadingDigits(s) + " Soft Assertion Failures\n"
      ensures LeadingCount(s) == |errors|
      ensures |LeadingDigits(s)| > 0 && (LeadingDigits(s)[0] == '0' ==> |errors| == 0)
    {
      SummaryLineStatesCount(|errors|);
      SummaryLine(|errors|)
    }
  }

  /** Registering `es` one by one into a fresh `ComposedFailure` keeps exactly
      `es`, in order, and makes it truthy iff `es` is non-empty. */
  lemma {:induction false} ComposedFailureKeepsOrder(es: seq<Failure>)
    ensures RegisterAll(ComposedFailure([]), es).errors == es
    ensures RegisterAll(ComposedFailure([]), es).Bool() <==> es != []
  {
    RegisterAllAppends(ComposedFailure([]), es);
  }

  function RegisterAll(c: ComposedFailure, es: seq<Failure>): ComposedFailure
    decreases |es|
  {
    if es == [] then c else RegisterAll(c.RegisterError(es[0]), es[1..])
  }

  lemma {:induction false} RegisterAllAppends(c: ComposedFailure, es: seq<Failure>)
    ensures RegisterAll(c, es).errors == c.errors + es
    decreases |es|
  {
    if es == [] {
      assert c.errors + es == c.errors;
    } else {
      var c' := c.RegisterError(es[0]);
      assert c'.errors == c.errors + [es[0]];
      RegisterAllAppends(c', es[1..]);
      assert c.errors + [es[0]] + es[1..] == c.errors + es;
    }
  }
}

=== FILE: meta.dfy ===
/**
 * Route tables: `handled_by` tags a method with the handler class that serves
 * it, and creating a subclass assigns it a table from method name to handler,
 * built from the tagged members it has (its own and inherited).
 */
module Meta {

  import opened Wrappers

  /** The handler classes a method can be tagged with. */
  datatype HandlerKind = StringHandler | NumberHandler | BaseHandler

  /** A class attribute: the name it is bound under and its `__handler__` tag, if any. */
  datatype Member = Member(name: string, handler: Option<HandlerKind>)

  /** `handled_by(handler)(func)`: the same function, now tagged with `handler`. */
  function HandledBy(handler: HandlerKind, func: Member): (r: Member)
    ensures r.name == func.name && r.handler == Some(handler)
  {
    func.(handler := Some(handler))
  }

  /** Re-tagging keeps only the last tag. */
  lemma HandledByLastWins(h1: HandlerKind, h2: HandlerKind, func: Member)
    ensures HandledBy(h2, HandledBy(h1, func)) == HandledBy(h2, func)
  {
  }

  /** The members of a class, by attribute name, and its route table. */
  datatype ClassDef = ClassDef(members: map<string, Member>, routes: map<string, HandlerKind>)

  /** The table `__init_subclass__` builds: every member carrying a tag,
      mapped to that tag. */
  function RouteTable(members: map<string, Member>): (routes: map<string, HandlerKind>)
    ensures forall name :: name in routes <==> name in members && members[name].handler.Some?
    ensures forall name :: name in routes ==> routes[name] == members[name].handler.value
  {
    map name | name in members && members[name].handler.Some? :: members[name].handler.value
  }

  /** Creating a subclass of `parent` that declares `own`: own members
      override inherited ones, and the subclass gets a table of its own. */
  function Subclass(parent: ClassDef, own: map<string, Member>): (child: ClassDef)
    ensures child.members == parent.members + own
    ensures child.routes == RouteTable(child.members)
  {
    var members := parent.members + own;
    ClassDef(members, RouteTable(members))
  }

  /** An inherited route survives in the subclass exactly when the subclass
      does not redefine that name, or redefines it with a tag of its own. */
  lemma InheritedRoutes(parent: ClassDef, own: map<string, Member>, name: string)
    requires parent.routes == RouteTable(parent.members)
    ensures name in Subclass(parent, own).routes <==>
              if name in own then own[name].handler.Some? else name in parent.routes
    ensures name in Subclass(parent, own).routes && name !in own ==>
              Subclass(parent, own).routes[name] == parent.routes[name]
  {
  }

  /** The untagged members of the session class `Asserto`: its methods and the
      class attribute `_routes`. */
  const AssertoUntagged: set<string> := {
    "_routes", "__init__", "error", "triggered", "with_category", "described_as", "should_raise",
    "_dispatch", "matches", "is_true", "is_false", "is_equal_to", "is_not_equal_to",
    "has_length", "is_instance", "refers_to", "does_not_refer_to", "is_none", "is_not_none",
    "_warn_not_triggered", "__del__", "__getattr__", "__repr__", "__enter__", "__exit__"
  }

  /** The methods of `Asserto` decorated with `handled_by(StringHandler)`. */
  const AssertoTagged: set<string> := {"ends_with", "starts_with", "is_digit", "is_alpha"}

  /** The members of the session class `Asserto`. */
  function AssertoMembers(): map<string, Member>
  {
    (map name | name in AssertoUntagged :: Member(name, None))
    + (map name | name in AssertoTagged :: HandledBy(StringHandler, Member(name, None)))
  }

  /** The session class as created: its own members over an empty base. */
  function Asserto(): ClassDef
  {
    Subclass(ClassDef(map[], map[]), AssertoMembers())
  }

  /** The session's route table sends exactly the four string checks to
      `StringHandler`. */
  lemma AssertoRoutes()
    ensures Asserto().routes == map[
      "ends_with" := StringHandler, "starts_with" := StringHandler,
      "is_digit" := StringHandler, "is_alpha" := StringHandler]
  {
    var routes := Asserto().routes;
    assert routes.Keys == AssertoTagged;
  }
}

=== FILE: numeric.dfy ===
/**
 * `NumberHandler`: comparison checks on a wrapped float. Floats are modelled as
 * exact reals; the handler raises `AssertionError` on failure and returns
 * nothing on success, which the model writes as a `Check`.
 */
module NumericHandlers {

  import opened Wrappers
  import opened Values
  import opened Messages
  import Handlers

  /** A handler holding a value that passed the constructor's guard. */
  datatype NumberHandler = NumberHandler(actual: real)

  /** The constructor as written: `super().__init__(actual)` reaches
      `object.__init__`, which refuses the argument, so every construction
      raises `TypeError` before the float guard is reached. */
  function NewNumberHandlerAsWritten(actual: Value): (r: Result<NumberHandler, Exception>)
    ensures r.Err? && r.error.TypeError?
  {
    match Handlers.ObjectInit([actual])
    case Some(e) => Err(e)
    case None => NewNumberHandler(actual)
  }

  /** The discrepancy: the float 1.5, which the guard admits, cannot be wrapped. */
  lemma NumberHandlerRejectsFloat()
    ensures NewNumberHandlerAsWritten(Float(1.5)).Err?
    ensures NewNumberHandler(Float(1.5)) == Ok(NumberHandler(1.5))
  {
  }

  /** The constructor as intended, with `actual` stored: anything but a float
      (a `bool` included) raises a bare `ValueError`. */
  function NewNumberHandler(actual: Value): (r: Result<NumberHandler, Exception>)
    ensures r.Ok? <==> actual.Float?
    ensures r.Ok? ==> r.value.actual == actual.f
    ensures r.Err? ==> r.error == ValueError([])
  {
    match actual
    case Float(f) => Ok(NumberHandler(f))
    case _ => Err(ValueError([]))
  }

  /** The check raised `AssertionError` with this message. */
  function Fails(message: Text): Check
  {
    Fail(AssertionError(Failure(message)))
  }

  function IsZero(h: NumberHandler): (r: Check)
    ensures r.Pass? <==> h.actual == 0.0
    ensures r.Fail? ==> r.error.AssertionError?
  {
    if h.actual != 0.0 then Fails([Lit("Expected "), StrOf(Float(h.actual)), Lit(" to be 0 but it was not.")]) else Pass
  }

  function IsNotZero(h: NumberHandler): (r: Check)
    ensures r.Pass? <==> h.actual != 0.0
    ensures r.Fail? ==> r.error.AssertionError?
  {
    if h.actual == 0.0 then Fails([Lit("Expected "), StrOf(Float(h.actual)), Lit(" to not be 0 but it was.")]) else Pass
  }

  /** `is_zero` and `is_not_zero` fail on exactly complementary inputs. */
  lemma ZeroChecksComplement(h: NumberHandler)
    ensures IsZero(h).Pass? != IsNotZero(h).Pass?
  {
  }

  /** Comparing a float with a value that is not a number raises `TypeError`. */
  function Unorderable(op: string, other: Value): Exception
  {
    TypeError(Plain("'" + op + "' not supported between instances of 'float' and '" + TypeName(other) + "'"))
  }

  /** `is_greater_than(other)`: `other` is rendered as given, so an int bound
      prints without a decimal point. */
  function IsGreaterThan(h: NumberHandler, other: Value): (r: Check)
    ensures NumOf(other).None? ==> r == Fail(Unorderable("<=", other))
    ensures NumOf(other).Some? ==> (r.Pass? <==> h.actual > NumOf(other).value)
    ensures NumOf(other).Some? && r.Fail? ==> r.error == AssertionError(Failure(
              [Lit("Expected "), StrOf(Float(h.actual)), Lit(" to be greater than "),
               StrOf(other), Lit(", but it was not.")]))
  {
    match NumOf(other)
    case None => Fail(Unorderable("<=", other))
    case Some(o) =>
      if h.actual <= o then
        Fails([Lit("Expected "), StrOf(Float(h.actual)), Lit(" to be greater than "), StrOf(other), Lit(", but it was not.")])
      else Pass
  }

  function IsLesserThan(h: NumberHandler, other: Value): (r: Check)
    ensures NumOf(other).None? ==> r == Fail(Unorderable(">=", other))
    ensures NumOf(other).Some? ==> (r.Pass? <==> h.actual < NumOf(other).value)
    ensures NumOf(other).Some? && r.Fail? ==> r.error == AssertionError(Failure(
              [Lit("Expected "), StrOf(Float(h.actual)), Lit(" to be lesser than "),
               StrOf(other), Lit(", but it was not.")]))
  {
    match NumOf(other)
    case None => Fail(Unorderable(">=", other))
    case Some(o) =>
      if h.actual >= o then
        Fails([Lit("Expected "), StrOf(Float(h.actual)), Lit(" to be lesser than "), StrOf(other), Lit(", but it was not.")])
      else Pass
  }

  /** `is_positive` delegates to `is_greater_than(0)` with the int `0`: it passes
      iff the value is above zero and fails with the greater-than message about `0`. */
  function IsPositive(h: NumberHandler): (r: Check)
    ensures r.Pass? <==> h.actual > 0.0
    ensures r.Fail? ==> r.error == AssertionError(Failure(
              [Lit("Expected "), StrOf(Float(h.actual)), Lit(" to be greater than "),
               StrOf(Int(0)), Lit(", but it was not.")]))
  {
    IsGreaterThan(h, Int(0))
  }

  /** `is_negative` delegates to `is_lesser_than(0)` with the int `0`. */
  function IsNegative(h: NumberHandler): (r: Check)
    ensures r.Pass? <==> h.actual < 0.0
    ensures r.Fail? ==> r.error == AssertionError(Failure(
              [Lit("Expected "), StrOf(Float(h.actual)), Lit(" to be lesser than "),
               StrOf(Int(0)), Lit(", but it was not.")]))
  {
    IsLesserThan(h, Int(0))
  }

  /** No value is both positive and negative, and zero is neither. */
  lemma SignChecksExclusive(h: NumberHandler)
    ensures !(IsPositive(h).Pass? && IsNegative(h).Pass?)
    ensures IsZero(h).Pass? <==> IsPositive(h).Fail? && IsNegative(h).Fail?
  {
  }

  /** `v - 1` (`d` negative) or `v + 1` as an augmented assignment with the int
      `d`: a bool or an int gives an int and a float a float, so the result
      prints the way Python prints it; anything else raises `TypeError`. */
  function Offset(v: Value, d: int): (r: Result<Value, Exception>)
    ensures r.Ok? <==> NumOf(v).Some?
    ensures r.Ok? ==> NumOf(r.value) == Some(NumOf(v).value + d as real)
    ensures r.Ok? ==> (r.value.Float? <==> v.Float?) && (r.value.Int? <==> !v.Float?)
    ensures r.Err? ==> r.error.TypeError?
  {
    match v
    case Bool(b) => Ok(Int((if b then 1 else 0) + d))
    case Int(i) => Ok(Int(i + d))
    case Float(f) => Ok(Float(f + d as real))
    case _ =>
      if d < 0 then Err(TypeError(Plain("unsupported operand type(s) for -=: '" + TypeName(v) + "' and 'int'")))
      else if v.Str? then Err(TypeError(Plain("can only concatenate str (not \"int\") to str")))
      else if IsTupleKind(v) then Err(TypeError(Plain("can only concatenate tuple (not \"int\") to tuple")))
      else if v.List? then Err(TypeError(Plain("'int' object is not iterable")))
      else Err(TypeError(Plain("unsupported operand type(s) for +=: '" + TypeName(v) + "' and 'int'")))
  }

  /** The bounds `is_between` compares against: `low -= 1` and then `high += 1`
      when inclusive, the bounds as given otherwise. */
  function Widen(low: Value, high: Value, inclusive: bool): Result<(Value, Value), Exception>
  {
    if !inclusive then Ok((low, high))
    else
      match Offset(low, -1)
      case Err(e) => Err(e)
      case Ok(lo) =>
        match Offset(high, 1)
        case Err(e) => Err(e)
        case Ok(hi) => Ok((lo, hi))
  }

  /** `actual <= low or actual >= high`, left to right: a bound that is not a
      number raises `TypeError` when its comparison is reached, and the second
      comparison is not reached when the first holds. */
  function OutsideBounds(actual: real, low: Value, high: Value): (r: Result<bool, Exception>)
    ensures NumOf(low).Some? && NumOf(high).Some? ==>
              r == Ok(actual <= NumOf(low).value || actual >= NumOf(high).value)
  {
    match NumOf(low)
    case None => Err(Unorderable("<=", low))
    case Some(l) =>
      if actual <= l then Ok(true)
      else
        match NumOf(high)
        case None => Err(Unorderable(">=", high))
        case Some(u) => Ok(actual >= u)
  }

  /** The failure `is_between` raises, reporting the bounds it actually compared against. */
  function BetweenFailure(actual: real, low: Value, high: Value): Exception
  {
    AssertionError(Failure([Lit("Expected "), StrOf(Float(actual)), Lit(" to be between ("),
                            StrOf(low), Lit(", ..., "), StrOf(high), Lit(")")]))
  }

  /** Both bounds are numbers. */
  predicate NumericBounds(low: Value, high: Value)
  {
    NumOf(low).Some? && NumOf(high).Some?
  }

  /** `is_between` as written: the inclusive form widens both bounds by one and
      still compares strictly, so over the reals it admits values up to one unit
      outside the closed interval. The bounds are rendered as Python prints them. */
  function IsBetween(h: NumberHandler, low: Value, high: Value, inclusive: bool): (r: Check)
    ensures NumericBounds(low, high) && !inclusive ==>
              (r.Pass? <==> NumOf(low).value < h.actual < NumOf(high).value)
    ensures NumericBounds(low, high) && inclusive ==>
              (r.Pass? <==> NumOf(low).value - 1.0 < h.actual < NumOf(high).value + 1.0)
    ensures NumericBounds(low, high) && r.Fail? && inclusive ==>
              r.error == BetweenFailure(h.actual, Offset(low, -1).value, Offset(high, 1).value)
    ensures r.Fail? && !inclusive && NumOf(low).Some? && (NumOf(high).Some? || h.actual <= NumOf(low).value) ==>
              r.error == BetweenFailure(h.actual, low, high)
    ensures inclusive && !NumericBounds(low, high) ==> r.Fail? && r.error.TypeError?
    ensures !inclusive && NumOf(low).None? ==> r == Fail(Unorderable("<=", low))
    ensures !inclusive && NumOf(low).Some? && NumOf(high).None? && h.actual > NumOf(low).value ==>
              r == Fail(Unorderable(">=", high))
  {
    match Widen(low, high, inclusive)
    case Err(e) => Fail(e)
    case Ok((lo, hi)) =>
      match OutsideBounds(h.actual, lo, hi)
      case Err(e) => Fail(e)
      case Ok(outside) => if outside then Fail(BetweenFailure(h.actual, lo, hi)) else Pass
  }

  /** The bounds are printed as given: int bounds stay ints, widened or not,
      and a string bound raises the comparison's `TypeError`. */
  lemma BetweenRendersBoundsAsGiven()
    ensures IsBetween(NumberHandler(5.0), Int(6), Int(8), false) == Fail(BetweenFailure(5.0, Int(6), Int(8)))
    ensures IsBetween(NumberHandler(5.0), Int(6), Int(8), true) == Fail(BetweenFailure(5.0, Int(5), Int(9)))
    ensures IsBetween(NumberHandler(5.0), Str("a"), Int(8), false) == Fail(Unorderable("<=", Str("a")))
  {
  }

  /** A real is a whole number. */
  predicate Integral(x: real)
  {
    x == x.Floor as real
  }

  /** A bound that, when it is a number, is a whole one. */
  predicate WholeBound(v: Value)
  {
    NumOf(v).Some? ==> Integral(NumOf(v).value)
  }

  /** On whole numbers the widening is harmless: the inclusive check is the
      closed interval, and a bound that is not a number fails it. */
  lemma InclusiveBetweenOnIntegers(h: NumberHandler, low: Value, high: Value)
    requires Integral(h.actual) && WholeBound(low) && WholeBound(high)
    ensures IsBetween(h, low, high, true).Pass? <==>
              NumericBounds(low, high) && NumOf(low).value <= h.actual <= NumOf(high).value
  {
    if NumericBounds(low, high) {
      var a, l, u := h.actual.Floor, NumOf(low).value.Floor, NumOf(high).value.Floor;
      assert l - 1 < a <==> l <= a;
      assert a < u + 1 <==> a <= u;
      assert (l - 1) as real == NumOf(low).value - 1.0 && (u + 1) as real == NumOf(high).value + 1.0;
    }
  }

  /** The discrepancy: 99.5 is not in [0, 99], yet the inclusive check passes. */
  lemma InclusiveBetweenAdmitsOutside()
    ensures IsBetween(NumberHandler(99.5), Int(0), Int(99), true).Pass?
    ensures !(0.0 <= 99.5 <= 99.0)
  {
  }

  /** `is_between` as its docstring describes it: inclusive means the bounds
      themselves count. Bounds are compared left to right as written. */
  function IsBetweenIntended(h: NumberHandler, low: Value, high: Value, inclusive: bool): (r: Check)
    ensures NumericBounds(low, high) && !inclusive ==>
              (r.Pass? <==> NumOf(low).value < h.actual < NumOf(high).value)
    ensures NumericBounds(low, high) && inclusive ==>
              (r.Pass? <==> NumOf(low).value <= h.actual <= NumOf(high).value)
    ensures NumericBounds(low, high) && r.Fail? ==> r.error == BetweenFailure(h.actual, low, high)
    ensures !NumericBounds(low, high) ==> r.Fail?
    ensures NumOf(low).None? ==> r == Fail(Unorderable(if inclusive then "<" else "<=", low))
  {
    match NumOf(low)
    case None => Fail(Unorderable(if inclusive then "<" else "<=", low))
    case Some(l) =>
      if (if inclusive then h.actual < l else h.actual <= l) then Fail(BetweenFailure(h.actual, low, high))
      else
        match NumOf(high)
        case None => Fail(Unorderable(if inclusive then ">" else ">=", high))
        case Some(u) =>
          if (if inclusive then h.actual > u else h.actual >= u) then Fail(BetweenFailure(h.actual, low, high))
          else Pass
  }

  /** The corrected check agrees with the code as written exactly where the code
      is right: always for the exclusive form, and on whole numbers for the inclusive one. */
  lemma IntendedBetweenAgrees(h: NumberHandler, low: Value, high: Value, inclusive: bool)
    requires !inclusive || (Integral(h.actual) && WholeBound(low) && WholeBound(high))
    ensures IsBetweenIntended(h, low, high, inclusive).Pass? == IsBetween(h, low, high, inclusive).Pass?
  {
    if inclusive {
      InclusiveBetweenOnIntegers(h, low, high);
    }
  }

  /** The failure `is_not_between` raises; it reports the bounds as given. */
  function NotBetweenFailure(actual: real, low: Value, high: Value): Exception
  {
    AssertionError(Failure([Lit("Expected "), StrOf(Float(actual)), Lit(" to not be between ("),
                            StrOf(low), Lit(", ..., "), StrOf(high), Lit(")")]))
  }

  /** `is_not_between` as written: it returns whatever a passing `is_between`
      returns and raises its own failure when `is_between` fails an assertion,
      so it passes on exactly the values that are between; a `TypeError` from
      `is_between` goes through. */
  function IsNotBetween(h: NumberHandler, low: Value, high: Value, inclusive: bool): (r: Check)
    ensures r.Pass? <==> IsBetween(h, low, high, inclusive).Pass?
    ensures r.Fail? && IsBetween(h, low, high, inclusive).error.AssertionError? ==>
              r.error == NotBetweenFailure(h.actual, low, high)
    ensures IsBetween(h, low, high, inclusive).Fail? && !IsBetween(h, low, high, inclusive).error.AssertionError? ==>
              r == IsBetween(h, low, high, inclusive)
    ensures NumericBounds(low, high) && r.Fail? ==> r.error == NotBetweenFailure(h.actual, low, high)
  {
    match IsBetween(h, low, high, inclusive)
    case Pass => Pass
    case Fail(e) =>
      if e.AssertionError? then Fail(NotBetweenFailure(h.actual, low, high))
      else Fail(e)
  }

  /** The discrepancy: 5 lies strictly between 4 and 6, yet `is_not_between` passes. */
  lemma NotBetweenPassesInside()
    ensures 4.0 < 5.0 < 6.0
    ensures IsNotBetween(NumberHandler(5.0), Int(4), Int(6), false).Pass?
  {
  }

  /** `is_not_between` as its docstring describes it: the complement of the
      intended `is_between`, whose `TypeError` still goes through. */
  function IsNotBetweenIntended(h: NumberHandler, low: Value, high: Value, inclusive: bool): (r: Check)
    ensures NumericBounds(low, high) && !inclusive ==>
              (r.Pass? <==> h.actual <= NumOf(low).value || h.actual >= NumOf(high).value)
    ensures NumericBounds(low, high) && inclusive ==>
              (r.Pass? <==> h.actual < NumOf(low).value || h.actual > NumOf(high).value)
    ensures NumericBounds(low, high) && r.Fail? ==> r.error == NotBetweenFailure(h.actual, low, high)
    ensures NumOf(low).None? ==> r == IsBetweenIntended(h, low, high, inclusive)
  {
    match IsBetweenIntended(h, low, high, inclusive)
    case Pass => Fail(NotBetweenFailure(h.actual, low, high))
    case Fail(e) => if e.AssertionError? then Pass else Fail(e)
  }

  /** The corrected pair are exact complements on numeric bounds, and the
      corrected `is_not_between` never passes where `is_between` does. */
  lemma IntendedBetweenComplement(h: NumberHandler, low: Value, high: Value, inclusive: bool)
    ensures NumericBounds(low, high) ==>
              IsNotBetweenIntended(h, low, high, inclusive).Pass? != IsBetweenIntended(h, low, high, inclusive).Pass?
    ensures IsNotBetweenIntended(h, low, high, inclusive).Pass? ==> IsBetweenIntended(h, low, high, inclusive).Fail?
  {
  }
}

=== FILE: scopes.dfy ===
/**
 * Chains of checks on one session, and the soft scope around them: inside
 * `with Asserto(x) as a:` every failing check is stored in order and the scope
 * raises one aggregate on exit; outside, the first failing check raises and
 * the chain stops there.
 */
module Scopes {

  import opened Values
  import opened Messages
  import opened Session

  /** A session check whose only possible exception is its own failure. */
  datatype Call =
    | IsTrueCall
    | IsFalseCall
    | IsEqualToCall(other: Value)
    | IsNotEqualToCall(other: Value)
    | RefersToCall(other: Value)
    | DoesNotReferToCall(other: Value)
    | IsNoneCall
    | IsNotNoneCall

  /** Running one check. */
  function Apply(s: Asserto, c: Call): Step<Asserto>
  {
    match c
    case IsTrueCall => IsTrue(s)
    case IsFalseCall => IsFalse(s)
    case IsEqualToCall(o) => IsEqualTo(s, o)
    case IsNotEqualToCall(o) => IsNotEqualTo(s, o)
    case RefersToCall(o) => RefersTo(s, o)
    case DoesNotReferToCall(o) => DoesNotReferTo(s, o)
    case IsNoneCall => IsNone(s)
    case IsNotNoneCall => IsNotNone(s)
  }

  /** When each check fails, stated on the wrapped value alone. */
  predicate FailsOn(v: Value, c: Call)
  {
    match c
    case IsTrueCall => v == Bool(false)
    case IsFalseCall => v == Bool(true)
    case IsEqualToCall(o) => !PyEq(v, o)
    case IsNotEqualToCall(o) => PyEq(v, o)
    case RefersToCall(o) => v != o
    case DoesNotReferToCall(o) => v == o
    case IsNoneCall => v != NoneV
    case IsNotNoneCall => v == NoneV
  }

  /** The message each check reports. */
  function MessageOf(v: Value, c: Call): Text
  {
    match c
    case IsTrueCall => [ReprOf(v), Lit(" was not True")]
    case IsFalseCall => [ReprOf(v), Lit(" was not False")]
    case IsEqualToCall(o) => [ReprOf(v), Lit(" was not equal to: "), ReprOf(o)]
    case IsNotEqualToCall(o) => [ReprOf(v), Lit(" is equal to: "), ReprOf(o)]
    case RefersToCall(o) => [ReprOf(v), Lit(" is not: "), ReprOf(o)]
    case DoesNotReferToCall(o) => [ReprOf(v), Lit(" points to the same memory location as: "), ReprOf(o)]
    case IsNoneCall => [ReprOf(v), Lit(" is not None")]
    case IsNotNoneCall => [ReprOf(v), Lit(" is None")]
  }

  /** Every check reports exactly when it fails, with its own message. */
  lemma ApplyReports(s: Asserto, c: Call)
    ensures Reports(s, Apply(s, c), FailsOn(s.actual, c), MessageOf(s.actual, c))
  {
  }

  /** Running checks in order; a raise ends the chain. */
  function Chain(s: Asserto, cs: seq<Call>): Step<Asserto>
    decreases |cs|
  {
    if cs == [] then Done(s)
    else
      match Apply(s, cs[0])
      case Threw(t, e) => Threw(t, e)
      case Done(t) => Chain(t, cs[1..])
  }

  /** The failures a chain meets, in call order, as reference. */
  function FailuresOf(s: Asserto, cs: seq<Call>): seq<Failure>
    decreases |cs|
  {
    if cs == [] then []
    else (if FailsOn(s.actual, cs[0]) then [FailureOf(s, MessageOf(s.actual, cs[0]))] else [])
         + FailuresOf(s, cs[1..])
  }

  /** The failures depend only on the wrapped value and the reason. */
  lemma {:induction false} FailuresOfFrame(s: Asserto, t: Asserto, cs: seq<Call>)
    requires t.actual == s.actual && t.reason == s.reason
    ensures FailuresOf(t, cs) == FailuresOf(s, cs)
    decreases |cs|
  {
    if cs != [] {
      FailuresOfFrame(s, t, cs[1..]);
    }
  }

  /** Soft mode: the chain never raises, stores every failure it meets in call
      order after those already stored, and leaves value, reason and mode alone. */
  lemma {:induction false} SoftChainStoresInOrder(s: Asserto, cs: seq<Call>)
    requires s.soft
    ensures Chain(s, cs).Done?
    ensures Chain(s, cs).state.Failures() == s.Failures() + FailuresOf(s, cs)
    ensures Chain(s, cs).state.actual == s.actual && Chain(s, cs).state.reason == s.reason
    ensures Chain(s, cs).state.soft
    ensures cs != [] ==> Chain(s, cs).state.triggered
    decreases |cs|
  {
    if cs != [] {
      var step := Apply(s, cs[0]);
      ApplyReports(s, cs[0]);
      assert step.Done?;
      var t := step.state;
      SoftChainStoresInOrder(t, cs[1..]);
      FailuresOfFrame(s, t, cs[1..]);
      var here := if FailsOn(s.actual, cs[0]) then [FailureOf(s, MessageOf(s.actual, cs[0]))] else [];
      assert t.Failures() == s.Failures() + here;
      assert Chain(s, cs) == Chain(t, cs[1..]);
      assert s.Failures() + here + FailuresOf(s, cs[1..]) == s.Failures() + (here + FailuresOf(s, cs[1..]));
    }
  }

  /** Hard mode: the chain raises iff some check fails, and then it raises the
      first failure; nothing is ever stored. */
  lemma {:induction false} HardChainStopsAtFirst(s: Asserto, cs: seq<Call>)
    requires !s.soft
    ensures Chain(s, cs).Threw? <==> FailuresOf(s, cs) != []
    ensures Chain(s, cs).Threw? ==> Chain(s, cs).error == AssertionError(FailuresOf(s, cs)[0])
    ensures Chain(s, cs).state.errorHandler == s.errorHandler
    decreases |cs|
  {
    if cs != [] {
      var step := Apply(s, cs[0]);
      ApplyReports(s, cs[0]);
      if !FailsOn(s.actual, cs[0]) {
        var t := step.state;
        HardChainStopsAtFirst(t, cs[1..]);
        FailuresOfFrame(s, t, cs[1..]);
      }
    }
  }

  /** A whole soft scope: enter, run the checks, exit. The exit raises iff some
      check failed, and then raises one aggregate holding exactly those
      failures in order, its first line counting them; otherwise the session
      is back in hard mode with nothing stored. */
  lemma SoftScope(s: Asserto, cs: seq<Call>)
    ensures Chain(Enter(s), cs).Done?
    ensures var out := Exit(Chain(Enter(s), cs).state);
            && (out.Threw? <==> FailuresOf(s, cs) != [])
            && (out.Threw? ==> out.error.SoftAssertionError? && out.error.errors == FailuresOf(s, cs))
            && (out.Threw? ==> LeadingCount(out.error.summary) == |FailuresOf(s, cs)|)
            && (out.Done? ==> !out.state.soft && out.state.Failures() == [])
  {
    SoftChainStoresInOrder(Enter(s), cs);
    FailuresOfFrame(s, Enter(s), cs);
  }

  /** Entering resets: failures stored before the scope do not reach its aggregate. */
  lemma ScopeForgetsEarlierFailures(s: Asserto, cs: seq<Call>)
    ensures Chain(Enter(s), cs).state.Failures() == FailuresOf(s, cs)
  {
    SoftChainStoresInOrder(Enter(s), cs);
    FailuresOfFrame(s, Enter(s), cs);
  }
}

=== FILE: session.dfy ===
/**
 * The `Asserto` session: the wrapped value, the `triggered` flag, the reason
 * (category and description), the soft/hard mode and the error handler.
 * Every operation is a step from one session to the next that either returns
 * or raises; Python keeps the mutations made before a raise, and so does the
 * state a `Threw` step carries.
 */
module Session {

  import opened Wrappers
  import opened Values
  import opened Messages
  import opened Messaging
  import opened ErrorHandling
  import Meta
  import StringHandlers
  import BaseHandlers
  import Builtins

  datatype Asserto = Asserto(actual: Value, triggered: bool, reason: Reason, soft: bool, errorHandler: ErrorHandler)
  {
    /** The failures stored in soft mode, oldest first. */
    function Failures(): seq<Failure>
    {
      errorHandler.contextFailures.errors
    }
  }

  /** `Asserto(actual)`: untriggered, hard, no reason set, nothing stored. */
  function New(actual: Value): (s: Asserto)
    ensures s.actual == actual && !s.triggered && !s.soft
    ensures s.reason == Reason(None, None) && s.Failures() == []
  {
    Asserto(actual, false, Reason(None, None), false, NewErrorHandler())
  }

  /** The failure a message turns into under the session's current reason. */
  function FailureOf(s: Asserto, message: Text): Failure
  {
    BuildAssertionError(message, s.reason.description, s.reason.category)
  }

  /** Step `r` from `s` reported failure `f`: in soft mode it returned and
      stored `f` last; in hard mode it raised `f` and stored nothing. */
  predicate Reported(s: Asserto, r: Step<Asserto>, f: Failure)
  {
    if s.soft then r.Done? && r.state.Failures() == s.Failures() + [f]
    else r.Threw? && r.error == AssertionError(f) && r.state.errorHandler == s.errorHandler
  }

  /** Step `r` from `s` passed: it returned and stored nothing. */
  predicate Passed(s: Asserto, r: Step<Asserto>)
  {
    r.Done? && r.state.errorHandler == s.errorHandler
  }

  /** A step never reports and passes at once. */
  lemma ReportedIsNotPassed(s: Asserto, r: Step<Asserto>, f: Failure)
    ensures !(Reported(s, r, f) && Passed(s, r))
  {
    if s.soft && Reported(s, r, f) {
      assert |r.state.Failures()| == |s.Failures()| + 1;
    }
  }

  /** `error(reason)`: the single failure point. The message is formatted with
      the session's description and category, then raised or stored by mode;
      nothing but the error handler changes. */
  function Error(s: Asserto, message: Text): (r: Step<Asserto>)
    ensures Reported(s, r, FailureOf(s, message))
    ensures r.state == s.(errorHandler := r.state.errorHandler)
  {
    match CheckShouldRaise(s.errorHandler, s.soft, Message(message), s.reason.description, s.reason.category)
    case Done(h) => Done(s.(errorHandler := h))
    case Threw(h, e) => Threw(s.(errorHandler := h), e)
  }

  /** `with_category`: overwrites the one stored category. */
  function WithCategory(s: Asserto, category: string): (r: Asserto)
    ensures r.reason.category == Some(category)
    ensures r.reason.description == s.reason.description
    ensures r == s.(reason := r.reason)
  {
    s.(reason := s.reason.(category := Some(category)))
  }

  /** `described_as`: overwrites the one stored description. */
  function DescribedAs(s: Asserto, description: string): (r: Asserto)
    ensures r.reason.description == Some(description)
    ensures r.reason.category == s.reason.category
    ensures r == s.(reason := r.reason)
  {
    s.(reason := s.reason.(description := Some(description)))
  }

  /** Last write wins, and the two setters do not interfere. */
  lemma ReasonSettersLastWins(s: Asserto, a: string, b: string, d: string)
    ensures WithCategory(WithCategory(s, a), b) == WithCategory(s, b)
    ensures DescribedAs(DescribedAs(s, a), b) == DescribedAs(s, b)
    ensures WithCategory(DescribedAs(s, d), a) == DescribedAs(WithCategory(s, a), d)
  {
  }

  /** A description set on the session replaces every generated message, and a
      category is put in front of it. */
  lemma DescriptionOverridesMessage(s: Asserto, category: string, description: string, message: Text)
    requires description != ""
    ensures FailureOf(DescribedAs(WithCategory(s, category), description), message).message
            == Plain("[" + category + "] ") + Plain(description)
  {
  }

  /** `self._routes[caller]()`: a handler class is instantiated with no
      arguments, which only `StringHandler` (whose constructor takes none) survives. */
  function Construct(kind: Meta.HandlerKind): (r: Result<Meta.HandlerKind, Exception>)
    ensures r.Ok? <==> kind == Meta.StringHandler
    ensures r.Ok? ==> r.value == kind
    ensures r.Err? ==> r.error.TypeError?
  {
    if kind == Meta.StringHandler then Ok(kind)
    else Err(TypeError(Plain("__init__() missing 1 required positional argument: 'actual'")))
  }

  /** The message of the `AttributeError` raised when `StringHandler` lacks the named method. */
  function MissingMethod(name: string): Text
  {
    Plain("'StringHandler' object has no attribute '" + name + "'")
  }

  /** The part of `_dispatch` that involves the handler, for the check named
      `caller` over a route table. In order: look the caller up in the routes;
      instantiate the handler; fetch the method named `caller`; run the type
      guard on the wrapped value; call the method with the value and `args`. */
  function HandlerCall(routes: map<string, Meta.HandlerKind>, caller: string, actual: Value, args: seq<Value>): (r: Result<Value, Exception>)
    ensures caller !in routes ==> r == Err(KeyError(Plain(caller + " does not have a dedicated handler.")))
    ensures caller in routes && routes[caller] != Meta.StringHandler ==> r.Err? && r.error.TypeError?
    ensures caller in routes && routes[caller] == Meta.StringHandler && caller !in StringHandlers.Methods ==>
              r == Err(AttributeError(MissingMethod(caller)))
    ensures caller in routes && routes[caller] == Meta.StringHandler && caller in StringHandlers.Methods ==>
              r == (match StringHandlers.Accepts(actual)
                    case Fail(e) => Err(e)
                    case Pass => StringHandlers.Invoke(caller, actual, args))
  {
    if caller !in routes then
      Err(KeyError(Plain(caller + " does not have a dedicated handler.")))
    else
      match Construct(routes[caller])
      case Err(e) => Err(e)
      case Ok(_) =>
        if caller !in StringHandlers.Methods then
          Err(AttributeError(MissingMethod(caller)))
        else
          match StringHandlers.Accepts(actual)
          case Fail(e) => Err(e)
          case Pass => StringHandlers.Invoke(caller, actual, args)
  }

  /** `_dispatch(on_fail, *args)`: the session is marked triggered first, so it
      stays triggered whatever the handler call raises; `on_fail` is reported
      iff the method returned `False`, and the session is returned otherwise. */
  function Dispatch(s: Asserto, routes: map<string, Meta.HandlerKind>, caller: string, onFail: Text, args: seq<Value>): (r: Step<Asserto>)
    ensures r.state.triggered
    ensures r.state == s.(triggered := true, errorHandler := r.state.errorHandler)
    ensures HandlerCall(routes, caller, s.actual, args).Err? ==>
              r == Threw(s.(triggered := true), HandlerCall(routes, caller, s.actual, args).error)
    ensures HandlerCall(routes, caller, s.actual, args) == Ok(Bool(false)) ==>
              Reported(s.(triggered := true), r, FailureOf(s, onFail))
    ensures HandlerCall(routes, caller, s.actual, args).Ok? && HandlerCall(routes, caller, s.actual, args) != Ok(Bool(false)) ==>
              r == Done(s.(triggered := true))
  {
    var s1 := s.(triggered := true);
    match HandlerCall(routes, caller, s.actual, args)
    case Err(e) => Threw(s1, e)
    case Ok(v) => if v == Bool(false) then Error(s1, onFail) else Done(s1)
  }

  /** The `on_fail` text of `ends_with`, from its message template. */
  function EndsWithMessage(actual: Value, suffix: Value): Text
  {
    [StrOf(actual), Lit(" did not end with "), StrOf(suffix)]
  }

  /** The `on_fail` text of `starts_with`, from its message template. */
  function StartsWithMessage(actual: Value, prefix: Value): Text
  {
    [StrOf(actual), Lit(" did not start with "), StrOf(prefix)]
  }

  /** Through the session's route table, an affix check reaches the string
      handler's guard and then its method. */
  lemma AffixRoute(name: string, actual: Value, x: Value)
    requires name == "ends_with" || name == "starts_with"
    ensures HandlerCall(Meta.Asserto().routes, name, actual, [x]) ==
            (match StringHandlers.Accepts(actual)
             case Fail(e) => Err(e)
             case Pass => StringHandlers.Invoke(name, actual, [x]))
  {
    Meta.AssertoRoutes();
  }

  /** `Asserto.ends_with(suffix)`, dispatched through the class's route table:
      a non-string is rejected by the guard, otherwise it passes iff the string
      ends with the suffix and reports the template message if not. */
  function EndsWith(s: Asserto, suffix: Value): (r: Step<Asserto>)
    ensures r.state.triggered
    ensures !s.actual.Str? ==> r.Threw? && r.error.ValueError? && r.state == s.(triggered := true)
    ensures s.actual.Str? && suffix.Str? && StringHandlers.EndsWithChars(s.actual.s, suffix.s) ==>
              r == Done(s.(triggered := true))
    ensures s.actual.Str? && suffix.Str? && !StringHandlers.EndsWithChars(s.actual.s, suffix.s) ==>
              Reported(s.(triggered := true), r, FailureOf(s, EndsWithMessage(s.actual, suffix)))
  {
    AffixRoute("ends_with", s.actual, suffix);
    Dispatch(s, Meta.Asserto().routes, "ends_with", EndsWithMessage(s.actual, suffix), [suffix])
  }

  /** `Asserto.starts_with(prefix)`, dispatched like `ends_with`. */
  function StartsWith(s: Asserto, prefix: Value): (r: Step<Asserto>)
    ensures r.state.triggered
    ensures !s.actual.Str? ==> r.Threw? && r.error.ValueError? && r.state == s.(triggered := true)
    ensures s.actual.Str? && prefix.Str? && prefix.s <= s.actual.s ==> r == Done(s.(triggered := true))
    ensures s.actual.Str? && prefix.Str? && !(prefix.s <= s.actual.s) ==>
              Reported(s.(triggered := true), r, FailureOf(s, StartsWithMessage(s.actual, prefix)))
  {
    AffixRoute("starts_with", s.actual, prefix);
    Dispatch(s, Meta.Asserto().routes, "starts_with", StartsWithMessage(s.actual, prefix), [prefix])
  }

  /** `is_digit` and `is_alpha` are routed to `StringHandler`, which defines
      neither method: the call marks the session triggered and then raises
      `AttributeError`, whatever the wrapped value. `onFail` stands for the
      template text, which `_templates.py` does not define. */
  function IsDigit(s: Asserto, onFail: Text): (r: Step<Asserto>)
    ensures r == Threw(s.(triggered := true), AttributeError(MissingMethod("is_digit")))
  {
    Meta.AssertoRoutes();
    assert "is_digit" in Meta.Asserto().routes && Meta.Asserto().routes["is_digit"] == Meta.StringHandler;
    assert "is_digit" !in StringHandlers.Methods;
    Dispatch(s, Meta.Asserto().routes, "is_digit", onFail, [])
  }

  function IsAlpha(s: Asserto, onFail: Text): (r: Step<Asserto>)
    ensures r == Threw(s.(triggered := true), AttributeError(MissingMethod("is_alpha")))
  {
    Meta.AssertoRoutes();
    assert "is_alpha" in Meta.Asserto().routes && Meta.Asserto().routes["is_alpha"] == Meta.StringHandler;
    assert "is_alpha" !in StringHandlers.Methods;
    Dispatch(s, Meta.Asserto().routes, "is_alpha", onFail, [])
  }

  /** The dispatcher keeps the session triggered even when the route lookup
      fails, and a route to a handler that needs constructor arguments fails
      before any check runs. */
  lemma DispatchTriggersFirst(s: Asserto, caller: string, onFail: Text, args: seq<Value>)
    requires caller !in Meta.AssertoTagged
    ensures Dispatch(s, Meta.Asserto().routes, caller, onFail, args).Threw?
    ensures Dispatch(s, Meta.Asserto().routes, caller, onFail, args).state == s.(triggered := true)
    ensures Dispatch(s, map[caller := Meta.NumberHandler], caller, onFail, args).error.TypeError?
  {
    Meta.AssertoRoutes();
  }

  /** What a check decorated to mark the session triggered does: when `failed`
      it reports `message` through `error`, and the flag is set only if the
      check returns normally. Value, reason and mode are untouched. */
  predicate Reports(s: Asserto, r: Step<Asserto>, failed: bool, message: Text)
  {
    && r.state.actual == s.actual && r.state.reason == s.reason && r.state.soft == s.soft
    && (if failed then Reported(s, r, FailureOf(s, message)) else Passed(s, r))
    && (r.state.triggered <==> s.triggered || r.Done?)
  }

  /** The body `if failed: self.error(message)` followed by the decorator's
      flag update after a normal return. */
  function Decorated(s: Asserto, failed: bool, message: Text): (r: Step<Asserto>)
    ensures Reports(s, r, failed, message)
  {
    var step := if failed then Error(s, message) else Done(s);
    if step.Done? then Done(step.state.(triggered := true)) else step
  }

  /** `is_true` compares by identity with `False`: only the literal `False` fails. */
  function IsTrue(s: Asserto): (r: Step<Asserto>)
    ensures Reports(s, r, s.actual == Bool(false), [ReprOf(s.actual), Lit(" was not True")])
  {
    Decorated(s, s.actual == Bool(false), [ReprOf(s.actual), Lit(" was not True")])
  }

  /** `is_false` compares by identity with `True`: only the literal `True` fails. */
  function IsFalse(s: Asserto): (r: Step<Asserto>)
    ensures Reports(s, r, s.actual == Bool(true), [ReprOf(s.actual), Lit(" was not False")])
  {
    Decorated(s, s.actual == Bool(true), [ReprOf(s.actual), Lit(" was not False")])
  }

  /** The session's boolean checks are identity checks, unlike the handler's
      truthiness checks: `None` passes both `is_true` and `is_false` here, and
      fails the handler's `is_true`. */
  lemma SessionTruthIsIdentity()
    ensures Passed(New(NoneV), IsTrue(New(NoneV)))
    ensures Passed(New(NoneV), IsFalse(New(NoneV)))
    ensures BaseHandlers.IsTrue(BaseHandlers.BaseHandler(NoneV)).Fail?
  {
  }

  /** On booleans the session's and the handler's checks decide alike. */
  lemma SessionTruthAgreesOnBooleans(s: Asserto, b: bool)
    requires s.actual == Bool(b)
    ensures Passed(s, IsTrue(s)) <==> BaseHandlers.IsTrue(BaseHandlers.BaseHandler(s.actual)).Pass?
    ensures Passed(s, IsFalse(s)) <==> BaseHandlers.IsFalse(BaseHandlers.BaseHandler(s.actual)).Pass?
  {
    ReportedIsNotPassed(s, IsTrue(s), FailureOf(s, [ReprOf(s.actual), Lit(" was not True")]));
    ReportedIsNotPassed(s, IsFalse(s), FailureOf(s, [ReprOf(s.actual), Lit(" was not False")]));
  }

  function IsEqualTo(s: Asserto, other: Value): (r: Step<Asserto>)
    ensures Reports(s, r, !PyEq(s.actual, other), [ReprOf(s.actual), Lit(" was not equal to: "), ReprOf(other)])
  {
    Decorated(s, !PyEq(s.actual, other), [ReprOf(s.actual), Lit(" was not equal to: "), ReprOf(other)])
  }

  function IsNotEqualTo(s: Asserto, other: Value): (r: Step<Asserto>)
    ensures Reports(s, r, PyEq(s.actual, other), [ReprOf(s.actual), Lit(" is equal to: "), ReprOf(other)])
  {
    Decorated(s, PyEq(s.actual, other), [ReprOf(s.actual), Lit(" is equal to: "), ReprOf(other)])
  }

  /** The session's equality checks pass exactly when the handler's do, and a
      value always equals itself. */
  lemma EqualityAgreesWithHandler(s: Asserto, other: Value)
    ensures Passed(s, IsEqualTo(s, other)) <==> BaseHandlers.IsEqualTo(BaseHandlers.BaseHandler(s.actual), other).Pass?
    ensures Passed(s, IsNotEqualTo(s, other)) <==> BaseHandlers.IsNotEqualTo(BaseHandlers.BaseHandler(s.actual), other).Pass?
    ensures Passed(s, IsEqualTo(s, s.actual))
  {
    ReportedIsNotPassed(s, IsEqualTo(s, other), FailureOf(s, [ReprOf(s.actual), Lit(" was not equal to: "), ReprOf(other)]));
    ReportedIsNotPassed(s, IsNotEqualTo(s, other), FailureOf(s, [ReprOf(s.actual), Lit(" is equal to: "), ReprOf(other)]));
    PyEqReflexive(s.actual);
  }

  /** `has_length(expected)`: a non-int or negative `expected` raises
      `ExpectedTypeError` before anything is measured (zero is accepted); an
      unsized value raises `TypeError` from `len`; otherwise it fails iff the
      length differs. Neither raise marks the session triggered. */
  function HasLength(s: Asserto, expected: Value): (r: Step<Asserto>)
    ensures BaseHandlers.IntOf(expected).None? || BaseHandlers.IntOf(expected).value < 0 ==>
              r == Threw(s, ExpectedTypeError([ReprOf(expected), Lit(" must be an int and greater than 0")]))
    ensures BaseHandlers.IntOf(expected).Some? && BaseHandlers.IntOf(expected).value >= 0 && Size(s.actual).None? ==>
              r.Threw? && r.error.TypeError? && r.state == s
    ensures BaseHandlers.IntOf(expected).Some? && BaseHandlers.IntOf(expected).value >= 0 && Size(s.actual).Some? ==>
              Reports(s, r, Size(s.actual).value != BaseHandlers.IntOf(expected).value,
                      [Lit("Length of: "), ReprOf(s.actual), Lit(" was not equal to: "), ReprOf(expected)])
  {
    match BaseHandlers.IntOf(expected)
    case None => Threw(s, ExpectedTypeError([ReprOf(expected), Lit(" must be an int and greater than 0")]))
    case Some(n) =>
      if n < 0 then Threw(s, ExpectedTypeError([ReprOf(expected), Lit(" must be an int and greater than 0")]))
      else
        match Builtins.Len(s.actual)
        case Err(e) => Threw(s, e)
        case Ok(len) =>
          Decorated(s, len != n, [Lit("Length of: "), ReprOf(s.actual), Lit(" was not equal to: "), ReprOf(expected)])
  }

  /** The session's `has_length` and the handler's accept and reject the same
      inputs; they differ only in the exception that reports a bad `expected`. */
  lemma HasLengthAgreesWithHandler(s: Asserto, expected: Value)
    ensures Passed(s, HasLength(s, expected)) <==>
            BaseHandlers.HasLength(BaseHandlers.BaseHandler(s.actual), expected).Pass?
    ensures HasLength(s, expected).Threw? && HasLength(s, expected).error.ExpectedTypeError? <==>
            BaseHandlers.HasLength(BaseHandlers.BaseHandler(s.actual), expected).Fail? &&
            BaseHandlers.HasLength(BaseHandlers.BaseHandler(s.actual), expected).error.ValueError?
  {
    var n := BaseHandlers.IntOf(expected);
    if n.Some? && n.value >= 0 && Size(s.actual).Some? {
      ReportedIsNotPassed(s, HasLength(s, expected),
        FailureOf(s, [Lit("Length of: "), ReprOf(s.actual), Lit(" was not equal to: "), ReprOf(expected)]));
    }
  }

  /** The examples the library's tests check on built-in values: `[1, 2, 3]`
      has length 3, `[]` length 0, and `(1, 2, 3)` against 4 raises
      "Length of: (1, 2, 3) was not equal to: 4". */
  lemma HasLengthExamples()
    ensures var xs := List(0, [Int(1), Int(2), Int(3)]);
            Passed(New(xs), HasLength(New(xs), Int(3)))
    ensures Passed(New(List(1, [])), HasLength(New(List(1, [])), Int(0)))
    ensures var t := Tuple([Int(1), Int(2), Int(3)]);
            HasLength(New(t), Int(4)) ==
            Threw(New(t), AssertionError(Failure([Lit("Length of: "), ReprOf(t), Lit(" was not equal to: "), ReprOf(Int(4))])))
  {
  }

  /** Expected values the guard refuses before measuring: a negative int and a
      string holding digits. */
  lemma HasLengthRefusesExpected()
    ensures HasLength(New(Str("abc")), Int(-1)) ==
            Threw(New(Str("abc")), ExpectedTypeError([ReprOf(Int(-1)), Lit(" must be an int and greater than 0")]))
    ensures HasLength(New(Str("abc")), Str("3")) ==
            Threw(New(Str("abc")), ExpectedTypeError([ReprOf(Str("3")), Lit(" must be an int and greater than 0")]))
    ensures HasLength(New(Str("abc")), Int(-1)).error.IsTypeError()
  {
  }

  function RefersTo(s: Asserto, other: Value): (r: Step<Asserto>)
    ensures Reports(s, r, !Is(s.actual, other), [ReprOf(s.actual), Lit(" is not: "), ReprOf(other)])
  {
    Decorated(s, !Is(s.actual, other), [ReprOf(s.actual), Lit(" is not: "), ReprOf(other)])
  }

  function DoesNotReferTo(s: Asserto, other: Value): (r: Step<Asserto>)
    ensures Reports(s, r, Is(s.actual, other), [ReprOf(s.actual), Lit(" points to the same memory location as: "), ReprOf(other)])
  {
    Decorated(s, Is(s.actual, other), [ReprOf(s.actual), Lit(" points to the same memory location as: "), ReprOf(other)])
  }

  function IsNone(s: Asserto): (r: Step<Asserto>)
    ensures Reports(s, r, s.actual != NoneV, [ReprOf(s.actual), Lit(" is not None")])
  {
    Decorated(s, s.actual != NoneV, [ReprOf(s.actual), Lit(" is not None")])
  }

  function IsNotNone(s: Asserto): (r: Step<Asserto>)
    ensures Reports(s, r, s.actual == NoneV, [ReprOf(s.actual), Lit(" is None")])
  {
    Decorated(s, s.actual == NoneV, [ReprOf(s.actual), Lit(" is None")])
  }

  /** The session's identity and `None` checks pass exactly when the handler's
      do, and `is_none` is `refers_to(None)`. */
  lemma IdentityAgreesWithHandler(s: Asserto, other: Value)
    ensures Passed(s, RefersTo(s, other)) <==> BaseHandlers.HasSameIdentityAs(BaseHandlers.BaseHandler(s.actual), other).Pass?
    ensures Passed(s, DoesNotReferTo(s, other)) <==> BaseHandlers.DoesNotHaveSameIdentityAs(BaseHandlers.BaseHandler(s.actual), other).Pass?
    ensures Passed(s, IsNone(s)) <==> BaseHandlers.IsNone(BaseHandlers.BaseHandler(s.actual)).Pass?
    ensures Passed(s, IsNone(s)) <==> Passed(s, RefersTo(s, NoneV))
    ensures Passed(s, IsNone(s)) != Passed(s, IsNotNone(s))
  {
    ReportedIsNotPassed(s, RefersTo(s, other), FailureOf(s, [ReprOf(s.actual), Lit(" is not: "), ReprOf(other)]));
    ReportedIsNotPassed(s, DoesNotReferTo(s, other),
      FailureOf(s, [ReprOf(s.actual), Lit(" points to the same memory location as: "), ReprOf(other)]));
    ReportedIsNotPassed(s, IsNone(s), FailureOf(s, [ReprOf(s.actual), Lit(" is not None")]));
    ReportedIsNotPassed(s, IsNotNone(s), FailureOf(s, [ReprOf(s.actual), Lit(" is None")]));
    ReportedIsNotPassed(s, RefersTo(s, NoneV), FailureOf(s, [ReprOf(s.actual), Lit(" is not: "), ReprOf(NoneV)]));
  }

  /** `asserto([]).refers_to([])` fails: the two empty lists are separate
      objects, so `refers_to` reports them and `does_not_refer_to` passes. */
  lemma SeparateListsDoNotReferToEachOther(a: nat, b: nat)
    requires a != b
    ensures Reported(New(List(a, [])), RefersTo(New(List(a, [])), List(b, [])),
                     FailureOf(New(List(a, [])), [ReprOf(List(a, [])), Lit(" is not: "), ReprOf(List(b, []))]))
    ensures Passed(New(List(a, [])), DoesNotReferTo(New(List(a, [])), List(b, [])))
  {
  }

  /** `__enter__`: the session turns soft and starts from an empty container. */
  function Enter(s: Asserto): (r: Asserto)
    ensures r.soft && r.Failures() == []
    ensures r.actual == s.actual && r.triggered == s.triggered && r.reason == s.reason
  {
    s.(soft := true, errorHandler := Reset(s.errorHandler))
  }

  /** `__exit__`: one `AssertionError` carrying every stored failure, with the
      count in its first line, is raised iff something was stored, and the
      session is then left as it was; otherwise the session turns hard. */
  function Exit(s: Asserto): (r: Step<Asserto>)
    ensures r.Threw? <==> s.Failures() != []
    ensures r.Threw? ==> r.state == s && r.error.SoftAssertionError? && r.error.errors == s.Failures()
    ensures r.Threw? ==> LeadingCount(r.error.summary) == |s.Failures()|
    ensures r.Done? ==> r.state == s.(soft := false)
  {
    match CheckSoftRaise(s.errorHandler)
    case Threw(_, e) => Threw(s, e)
    case Done(_) => Done(s.(soft := false))
  }
}

=== FILE: softly.dfy ===
/**
 * `AssertionErrorContainer`: the ordered store of failures a session collects
 * while it is in a soft scope.
 */
module Softly {

  import opened Messages

  datatype AssertionErrorContainer = AssertionErrorContainer(errors: seq<Failure>)
  {
    /** `store`: add a failure after every failure stored before it. */
    function Store(e: Failure): (c: AssertionErrorContainer)
      ensures c.Len() == Len() + 1
      ensures c.errors[..Len()] == errors && c.errors[Len()] == e
    {
      AssertionErrorContainer(errors + [e])
    }

    /** `register_error` has the same effect as `store`. */
    function RegisterError(e: Failure): (c: AssertionErrorContainer)
      ensures c == Store(e)
    {
      AssertionErrorContainer(errors + [e])
    }

    /** `clear`: forget every stored failure. */
    function Clear(): (c: AssertionErrorContainer)
      ensures c.Len() == 0 && !c.Bool()
    {
      AssertionErrorContainer([])
    }

    /** `__bool__`: some failure is stored. */
    predicate Bool()
    {
      errors != []
    }

    /** `__len__`. */
    function Len(): nat
    {
      |errors|
    }

    /** The first line of `__repr__`, which states how many failures are stored. */
    function Summary(): (s: string)
      ensures s == LeadingDigits(s) + " Soft Assertion Failures\n"
      ensures LeadingCount(s) == Len()
      ensures |LeadingDigits(s)| > 0 && (LeadingDigits(s)[0] == '0' ==> Len() == 0)
    {
      SummaryLineStatesCount(Len());
      SummaryLine(Len())
    }
  }

  /** A container with nothing stored, as a new `ErrorHandler` creates it. */
  function Empty(): (c: AssertionErrorContainer)
    ensures c.Len() == 0
  {
    AssertionErrorContainer([])
  }

  /** Storing `es` one after the other. */
  function StoreAll(c: AssertionErrorContainer, es: seq<Failure>): AssertionErrorContainer
    decreases |es|
  {
    if es == [] then c else StoreAll(c.Store(es[0]), es[1..])
  }

  /** Stores keep invocation order: after storing `es`, the container holds
      what it held before followed by `es`. */
  lemma {:induction false} StoreAllAppends(c: AssertionErrorContainer, es: seq<Failure>)
    ensures StoreAll(c, es).errors == c.errors + es
    decreases |es|
  {
    if es == [] {
      assert c.errors + es == c.errors;
    } else {
      var c' := c.Store(es[0]);
      assert c'.errors == c.errors + [es[0]];
      StoreAllAppends(c', es[1..]);
      assert c.errors + [es[0]] + es[1..] == c.errors + es;
    }
  }

  /** After `clear`, counting starts again from zero: the length is the number
      of stores since, the container is truthy iff there was one, and the
      stored failures are exactly those, in order. */
  lemma CountSinceClear(c: AssertionErrorContainer, es: seq<Failure>)
    ensures StoreAll(c.Clear(), es).errors == es
    ensures StoreAll(c.Clear(), es).Len() == |es|
    ensures StoreAll(c.Clear(), es).Bool() <==> |es| > 0
  {
    StoreAllAppends(c.Clear(), es);
  }
}

=== FILE: string_handler.dfy ===
/**
 * `StringHandler`: the handler the session routes its string checks to. Each
 * check runs the `accepts` guard first, so a non-string never reaches the
 * comparison.
 */
module StringHandlers {

  import opened Wrappers
  import opened Values
  import opened Messages

  /** `accepts`: a non-string raises `ValueError`; a string passes. */
  function Accepts(actual: Value): (r: Check)
    ensures r.Pass? <==> actual.Str?
    ensures r.Fail? ==> r.error.ValueError?
  {
    if actual.Str? then Pass
    else Fail(ValueError([Lit("<class 'asserto.handlers._strings.StringHandler'> cannot perform checks using: <class '"
                              + TypeName(actual) + "'>.  Must be a string.")]))
  }

  /** `s` ends with `t`, compared character by character from the end. */
  predicate EndsWithChars(s: string, t: string)
    ensures EndsWithChars(s, t) <==> |t| <= |s| && s[|s| - |t|..] == t
    decreases |t|
  {
    if t == [] then true
    else if s == [] then false
    else s[|s| - 1] == t[|t| - 1] && EndsWithChars(s[..|s| - 1], t[..|t| - 1])
  }

  /** `s` starts with `t`, compared character by character from the front. */
  predicate StartsWithChars(s: string, t: string)
    ensures StartsWithChars(s, t) <==> t <= s
    decreases |t|
  {
    if t == [] then true
    else if s == [] then false
    else s[0] == t[0] && StartsWithChars(s[1..], t[1..])
  }

  /** `t` is a string that `s` ends with (`ends`) or starts with. */
  predicate AffixMatches(s: string, t: Value, ends: bool)
  {
    t.Str? && (if ends then EndsWithChars(s, t.s) else StartsWithChars(s, t.s))
  }

  /** The `TypeError` for a tuple item that is not a string. */
  function NotStrInTuple(ends: bool, item: Value): Exception
  {
    TypeError(Plain("tuple for " + (if ends then "endswith" else "startswith")
                    + " must only contain str, not " + TypeName(item)))
  }

  /** How `str.endswith`/`str.startswith` scan a tuple of affixes: left to
      right, true at the first item that matches. An item that is not a string
      raises `TypeError` when the scan reaches it, so one after a match is never
      looked at. */
  function AffixScan(s: string, items: seq<Value>, ends: bool): (r: Result<bool, Exception>)
    ensures r == Ok(true) <==>
              exists i :: 0 <= i < |items| && AffixMatches(s, items[i], ends) &&
                          forall j :: 0 <= j < i ==> items[j].Str?
    ensures r.Err? <==>
              exists i :: 0 <= i < |items| && !items[i].Str? &&
                          forall j :: 0 <= j < i ==> !AffixMatches(s, items[j], ends)
    ensures r.Err? ==> r.error.TypeError?
    decreases |items|
  {
    if items == [] then Ok(false)
    else if !items[0].Str? then
      Err(NotStrInTuple(ends, items[0]))
    else if AffixMatches(s, items[0], ends) then Ok(true)
    else
      var r := AffixScan(s, items[1..], ends);
      assert forall i :: 0 <= i < |items[1..]| ==> items[1..][i] == items[i + 1];
      r
  }

  /** A tuple of strings only: the scan is true iff some item matches. */
  lemma AffixScanOfStrings(s: string, items: seq<Value>, ends: bool)
    ensures (forall i :: 0 <= i < |items| ==> items[i].Str?) ==>
              AffixScan(s, items, ends) == Ok(exists i :: 0 <= i < |items| && AffixMatches(s, items[i], ends))
  {
  }

  /** `actual.endswith(suffix)` after the guard. */
  function EndsWith(actual: Value, suffix: Value): (r: Result<bool, Exception>)
    ensures !actual.Str? ==> r == Err(Accepts(actual).error)
    ensures actual.Str? && !suffix.Str? && !IsTupleKind(suffix) ==> r.Err? && r.error.TypeError?
    ensures actual.Str? && suffix.Str? ==>
              r == Ok(|suffix.s| <= |actual.s| && actual.s[|actual.s| - |suffix.s|..] == suffix.s)
    ensures actual.Str? && IsTupleKind(suffix) ==> r == AffixScan(actual.s, TupleItems(suffix), true)
    ensures actual.Str? && IsTupleKind(suffix) &&
            (forall i :: 0 <= i < |TupleItems(suffix)| ==> TupleItems(suffix)[i].Str?) ==>
              r == Ok(exists i :: 0 <= i < |TupleItems(suffix)| && EndsWithChars(actual.s, TupleItems(suffix)[i].s))
  {
    match Accepts(actual)
    case Fail(e) => Err(e)
    case Pass =>
      if suffix.Str? then Ok(EndsWithChars(actual.s, suffix.s))
      else if IsTupleKind(suffix) then
        var items := TupleItems(suffix);
        AffixScanOfStrings(actual.s, items, true);
        AffixScan(actual.s, items, true)
      else Err(TypeError(Plain("endswith first arg must be str or a tuple of str, not " + TypeName(suffix))))
  }

  /** `actual.startswith(prefix)` after the guard. */
  function StartsWith(actual: Value, prefix: Value): (r: Result<bool, Exception>)
    ensures !actual.Str? ==> r == Err(Accepts(actual).error)
    ensures actual.Str? && !prefix.Str? && !IsTupleKind(prefix) ==> r.Err? && r.error.TypeError?
    ensures actual.Str? && prefix.Str? ==> r == Ok(prefix.s <= actual.s)
    ensures actual.Str? && IsTupleKind(prefix) ==> r == AffixScan(actual.s, TupleItems(prefix), false)
    ensures actual.Str? && IsTupleKind(prefix) &&
            (forall i :: 0 <= i < |TupleItems(prefix)| ==> TupleItems(prefix)[i].Str?) ==>
              r == Ok(exists i :: 0 <= i < |TupleItems(prefix)| && StartsWithChars(actual.s, TupleItems(prefix)[i].s))
  {
    match Accepts(actual)
    case Fail(e) => Err(e)
    case Pass =>
      if prefix.Str? then Ok(StartsWithChars(actual.s, prefix.s))
      else if IsTupleKind(prefix) then
        var items := TupleItems(prefix);
        AffixScanOfStrings(actual.s, items, false);
        AffixScan(actual.s, items, false)
      else Err(TypeError(Plain("startswith first arg must be str or a tuple of str, not " + TypeName(prefix))))
  }

  /** The examples the library's tests check. */
  lemma AffixExamples()
    ensures EndsWith(Str("foo"), Str("oo")) == Ok(true)
    ensures EndsWith(Str("foo"), Str("baz")) == Ok(false)
    ensures StartsWith(Str("baz"), Str("ba")) == Ok(true)
    ensures StartsWith(Str("baz"), Str("az")) == Ok(false)
  {
    assert "foo"[1..] == "oo";
    assert "ba" <= "baz";
  }

  /** A namedtuple is a tuple to `str.endswith`: any of its string fields may match. */
  lemma NamedTupleOfSuffixes()
    ensures EndsWith(Str("foo"), Record("Affixes", [("a", Str("x")), ("b", Str("oo"))])) == Ok(true)
    ensures StartsWith(Str("foo"), Record("Affixes", [("a", Str("x"))])) == Ok(false)
  {
    var t := Record("Affixes", [("a", Str("x")), ("b", Str("oo"))]);
    assert TupleItems(t) == [Str("x"), Str("oo")];
    assert "foo"[1..] == "oo";
    assert EndsWithChars("foo", TupleItems(t)[1].s);
  }

  /** A tuple mixing strings and other values: a match before the first
      non-string decides, otherwise the non-string raises `TypeError`. */
  lemma MixedTupleOfSuffixes()
    ensures EndsWith(Str("foo"), Tuple([Str("oo"), Int(1)])) == Ok(true)
    ensures EndsWith(Str("foo"), Tuple([Str("x"), Int(1)])) == Err(NotStrInTuple(true, Int(1)))
    ensures StartsWith(Str("foo"), Tuple([Int(1), Str("f")])) == Err(NotStrInTuple(false, Int(1)))
  {
    assert "foo"[1..] == "oo";
    assert EndsWithChars("foo", "oo");
    assert !EndsWithChars("foo", "x");
    assert [Str("x"), Int(1)][1..] == [Int(1)];
  }

  /** The methods a `StringHandler` instance has. */
  const Methods: set<string> := {"accepts", "ends_with", "starts_with"}

  /** Calling the handler method `name` with the wrapped value and the call's
      arguments, as the dispatcher does: `method(actual, *args)`. */
  function Invoke(name: string, actual: Value, args: seq<Value>): (r: Result<Value, Exception>)
    requires name in Methods
    ensures name == "ends_with" && |args| == 1 ==> r == (match EndsWith(actual, args[0]) case Ok(b) => Ok(Bool(b)) case Err(e) => Err(e))
    ensures name == "starts_with" && |args| == 1 ==> r == (match StartsWith(actual, args[0]) case Ok(b) => Ok(Bool(b)) case Err(e) => Err(e))
    ensures name != "accepts" && |args| != 1 ==> r.Err? && r.error.TypeError?
  {
    var expected := if name == "accepts" then 0 else 1;
    if |args| != expected then
      Err(TypeError([Lit(name + "() takes "), StrOf(Int(expected + 2)), Lit(" positional arguments but "),
                     StrOf(Int(|args| + 2)), Lit(" were given")]))
    else if name == "accepts" then
      (match Accepts(actual) case Pass => Ok(NoneV) case Fail(e) => Err(e))
    else if name == "ends_with" then
      (match EndsWith(actual, args[0]) case Ok(b) => Ok(Bool(b)) case Err(e) => Err(e))
    else
      (match StartsWith(actual, args[0]) case Ok(b) => Ok(Bool(b)) case Err(e) => Err(e))
  }
}

=== FILE: util.dfy ===
/**
 * Helpers from the library's utility module: iterability, conversion to a
 * tuple, and the duck-typed namedtuple test the dynamic prober relies on.
 */
module Util {

  import opened Wrappers
  import opened Values
  import opened Messages

  /** `iter(item)`: the items it yields, or the `TypeError` a non-iterable raises. */
  function Iter(item: Value): (r: Result<seq<Value>, Exception>)
    ensures r.Ok? <==> Values.IsIterable(item)
    ensures r.Ok? ==> r.value == Elements(item)
    ensures r.Err? ==> r.error.TypeError?
  {
    if Values.IsIterable(item) then Ok(Elements(item))
    else Err(TypeError(Plain("'" + TypeName(item) + "' object is not iterable")))
  }

  /** `is_iterable`: true iff starting an iteration does not raise. */
  function IsIterable(item: Value): (b: bool)
    ensures b <==> Iter(item).Ok?
  {
    match Iter(item)
    case Ok(_) => true
    case Err(_) => false
  }

  /** `to_iterable`: the items of an iterable, in order, or the one-element
      tuple holding a non-iterable item. */
  function ToIterable(item: Value): (r: seq<Value>)
    ensures IsIterable(item) ==> r == Elements(item)
    ensures !IsIterable(item) ==> r == [item]
  {
    match Iter(item)
    case Ok(items) => items
    case Err(_) => [item]
  }

  /** A sequence given to `to_iterable` comes back in the same order. */
  lemma ToIterablePreservesOrder(id: nat, xs: seq<Value>)
    ensures ToIterable(Tuple(xs)) == xs
    ensures ToIterable(List(id, xs)) == xs
  {
  }

  /** `to_iterable` is idempotent: converting its own result again gives it back. */
  lemma ToIterableIdempotent(item: Value)
    ensures ToIterable(Tuple(ToIterable(item))) == ToIterable(item)
  {
    ToIterablePreservesOrder(0, ToIterable(item));
  }

  /** The two examples the library's tests check. */
  lemma ToIterableExamples()
    ensures ToIterable(Int(1)) == [Int(1)]
    ensures ToIterable(List(0, [Int(1), Int(2), Int(3)])) == [Int(1), Int(2), Int(3)]
  {
  }

  /** `type(v).__bases__`. */
  function BasesOf(v: Value): seq<Base>
  {
    match v
    case Obj(_, _, bases, _) => bases
    case Record(_, _) => [TupleBase]
    case Bool(_) => [OtherBase("int")]
    case _ => [OtherBase("object")]
  }

  /** Every item of a tuple is a string. */
  predicate AllStrings(items: seq<Value>)
  {
    forall i :: 0 <= i < |items| ==> items[i].Str?
  }

  /** `is_namedtuple_like`, as written. The base test reads
      `len(bases) != 1 and bases[0] != tuple`: it rejects only a class with
      several bases whose first is not `tuple`, and a class with no bases at
      all (`object` itself) makes `bases[0]` raise `IndexError`. Then
      `_fields` must be a tuple whose items are all strings. */
  function IsNamedTupleLike(v: Value): (r: Result<bool, Exception>)
    ensures r.Err? <==> BasesOf(v) == []
    ensures r.Err? ==> r.error.IndexError?
    ensures r.Ok? && r.value ==> AttrOf(v, "_fields").Some? && IsTupleKind(AttrOf(v, "_fields").value)
    ensures r.Ok? && (AttrOf(v, "_fields").None? || !IsTupleKind(AttrOf(v, "_fields").value)) ==> !r.value
    ensures r.Ok? && |BasesOf(v)| > 1 && BasesOf(v)[0] != TupleBase ==> !r.value
    ensures r.Ok? && (|BasesOf(v)| == 1 || BasesOf(v)[0] == TupleBase)
            && AttrOf(v, "_fields").Some? && IsTupleKind(AttrOf(v, "_fields").value)
            ==> (r.value <==> AllStrings(TupleItems(AttrOf(v, "_fields").value)))
  {
    var bases := BasesOf(v);
    if |bases| != 1 && (bases == [] || bases[0] != TupleBase) then
      if bases == [] then Err(IndexError(Plain("tuple index out of range"))) else Ok(false)
    else
      var fields := match AttrOf(v, "_fields") case Some(f) => f case None => NoneV;
      if !IsTupleKind(fields) then Ok(false)
      else Ok(AllStrings(TupleItems(fields)))
  }

  /** Every namedtuple instance is recognised. */
  lemma RecordIsNamedTupleLike(cls: string, fs: seq<(string, Value)>)
    ensures IsNamedTupleLike(Record(cls, fs)) == Ok(true)
  {
  }

  /** Built-in values other than namedtuples are never record-like. */
  lemma BuiltinsAreNotNamedTupleLike(v: Value)
    requires !v.Obj? && !v.Record?
    ensures IsNamedTupleLike(v) == Ok(false)
  {
  }

  /** As written, the base test lets through a plain object whose class has a
      single base other than `tuple`, as long as it carries a `_fields` tuple of
      strings. */
  lemma NamedTupleLikeAcceptsNonTuple()
    ensures IsNamedTupleLike(Obj(0, "C", [OtherBase("object")], map["_fields" := Tuple([Str("a")])])) == Ok(true)
  {
  }
}

=== FILE: values.dfy ===
/**
 * The Python values an assertion session can wrap, with the parts of Python's
 * data model the core relies on: `==`, `is`, truthiness, `len`, iteration,
 * `in`, attribute presence and callability.
 *
 * Rendering a value as text (`str`/`repr`) is not modelled; messages keep the
 * value itself at that position (see module Messages).
 */
module Values {

  import opened Wrappers

  /** A base class in a class's `__bases__`; only `tuple` is told apart. */
  datatype Base = TupleBase | OtherBase(name: string)

  datatype Value =
    | NoneV
    | Bool(b: bool)
    | Int(i: int)
    | Float(f: real)
    | Str(s: string)
    | Tuple(items: seq<Value>)
      /** A `list`: a mutable container, so it carries its own identity. */
    | List(id: nat, items: seq<Value>)
      /** A `dict` with string keys, in insertion order, and its own identity. */
    | Dict(id: nat, entries: seq<(string, Value)>)
      /** An instance of a `collections.namedtuple` class. */
    | Record(cls: string, fields: seq<(string, Value)>)
      /** A plain object: its own identity, class name, bases and instance attributes. */
    | Obj(id: nat, cls: string, bases: seq<Base>, attrs: map<string, Value>)
      /** A callable that can be called without arguments and returns `result`. */
    | Thunk0(id: nat, result: Value)
      /** A callable with `required` positional parameters (at least one). */
    | ThunkN(id: nat, required: nat)

  /** The numeric value of `bool`, `int` and `float`, which Python compares across types. */
  function NumOf(v: Value): Option<real>
  {
    match v
    case Bool(b) => Some(if b then 1.0 else 0.0)
    case Int(i) => Some(i as real)
    case Float(f) => Some(f)
    case _ => None
  }

  /** Values that are instances of `tuple`: tuples and namedtuple instances. */
  predicate IsTupleKind(v: Value)
  {
    v.Tuple? || v.Record?
  }

  function TupleItems(v: Value): seq<Value>
    requires IsTupleKind(v)
  {
    if v.Tuple? then v.items else FieldValues(v.fields)
  }

  function FieldValues(fields: seq<(string, Value)>): (r: seq<Value>)
    ensures |r| == |fields|
    ensures forall i :: 0 <= i < |fields| ==> r[i] == fields[i].1
  {
    seq(|fields|, i requires 0 <= i < |fields| => fields[i].1)
  }

  function FieldNames(fields: seq<(string, Value)>): (r: seq<string>)
    ensures |r| == |fields|
    ensures forall i :: 0 <= i < |fields| ==> r[i] == fields[i].0
  {
    seq(|fields|, i requires 0 <= i < |fields| => fields[i].0)
  }

  /** The keys of a dict's entries. */
  function KeySet(entries: seq<(string, Value)>): set<string>
  {
    set i | 0 <= i < |entries| :: entries[i].0
  }

  /** Python's `==` on the modelled values. Numbers compare by value across
      `bool`, `int` and `float`; a namedtuple equals the tuple of its values;
      dicts compare by keys and values, ignoring order; objects and callables
      compare by identity, the default `object.__eq__`. */
  function PyEq(a: Value, b: Value): bool
    decreases a, 2
  {
    if NumOf(a).Some? || NumOf(b).Some? then
      NumOf(a).Some? && NumOf(b).Some? && NumOf(a).value == NumOf(b).value
    else
      match a
      case Str(s) => b.Str? && b.s == s
      case Tuple(xs) =>
        && IsTupleKind(b)
        && |xs| == |TupleItems(b)|
        && forall i :: 0 <= i < |xs| ==> PyEq(xs[i], TupleItems(b)[i])
      case Record(_, fs) =>
        && IsTupleKind(b)
        && |fs| == |TupleItems(b)|
        && forall i :: 0 <= i < |fs| ==> PyEq(fs[i].1, TupleItems(b)[i])
      case List(_, xs) =>
        && b.List?
        && |xs| == |b.items|
        && forall i :: 0 <= i < |xs| ==> PyEq(xs[i], b.items[i])
      case Dict(_, es) =>
        b.Dict? && KeySet(es) == KeySet(b.entries) && EntriesIn(a, b.entries)
      case _ => a == b
  }

  /** Every entry of dict `d` has an entry of `fs` with the same key and an equal value. */
  predicate EntriesIn(d: Value, fs: seq<(string, Value)>)
    requires d.Dict?
    decreases d, 1
  {
    forall i :: 0 <= i < |d.entries| ==> HasEqualEntry(d, i, fs)
  }

  /** Some entry of `fs` has the key of the `i`th entry of dict `d` and a value equal to its value. */
  predicate HasEqualEntry(d: Value, i: int, fs: seq<(string, Value)>)
    requires d.Dict? && 0 <= i < |d.entries|
    decreases d, 0
  {
    exists j :: 0 <= j < |fs| && fs[j].0 == d.entries[i].0 && PyEq(d.entries[i].1, fs[j].1)
  }

  /** Python's `is`. Objects, callables, lists and dicts carry their own identity,
      so two separately built equal lists are different objects; equal immutable
      built-in values (numbers, strings, tuples) are taken to be one object. */
  predicate Is(a: Value, b: Value)
  {
    a == b
  }

  /** Identity implies equality: `x is y` gives `x == y` for every modelled value. */
  lemma {:induction false} PyEqReflexive(v: Value)
    ensures PyEq(v, v)
    decreases v
  {
    match v
    case Tuple(xs) =>
      forall i | 0 <= i < |xs| ensures PyEq(xs[i], xs[i]) { PyEqReflexive(xs[i]); }
    case Record(_, fs) =>
      forall i | 0 <= i < |fs| ensures PyEq(fs[i].1, TupleItems(v)[i]) { PyEqReflexive(fs[i].1); }
    case List(_, xs) =>
      forall i | 0 <= i < |xs| ensures PyEq(xs[i], xs[i]) { PyEqReflexive(xs[i]); }
    case Dict(_, es) =>
      forall i | 0 <= i < |es| ensures HasEqualEntry(v, i, es) {
        PyEqReflexive(es[i].1);
        assert es[i].0 == es[i].0 && PyEq(es[i].1, es[i].1);
      }
    case _ =>
  }

  lemma IsImpliesPyEq(a: Value, b: Value)
    requires Is(a, b)
    ensures PyEq(a, b)
  {
    PyEqReflexive(a);
  }

  /** The name of the value's class, `type(v).__name__`. */
  function TypeName(v: Value): string
  {
    match v
    case NoneV => "NoneType"
    case Bool(_) => "bool"
    case Int(_) => "int"
    case Float(_) => "float"
    case Str(_) => "str"
    case Tuple(_) => "tuple"
    case List(_, _) => "list"
    case Dict(_, _) => "dict"
    case Record(cls, _) => cls
    case Obj(_, cls, _, _) => cls
    case Thunk0(_, _) => "function"
    case ThunkN(_, _) => "function"
  }

  /** `len(v)`, or `None` when the value's class has no `__len__`. */
  function Size(v: Value): Option<nat>
  {
    match v
    case Str(s) => Some(|s|)
    case Tuple(xs) => Some(|xs|)
    case List(_, xs) => Some(|xs|)
    case Dict(_, es) => Some(|KeySet(es)|)
    case Record(_, fs) => Some(|fs|)
    case _ => None
  }

  /** `bool(v)`: numbers are true when non-zero, sized values when non-empty,
      `None` is false and every other object is true. */
  predicate Truthy(v: Value)
  {
    match v
    case NoneV => false
    case Bool(b) => b
    case Int(i) => i != 0
    case Float(f) => f != 0.0
    case Str(s) => s != []
    case Tuple(xs) => xs != []
    case List(_, xs) => xs != []
    case Dict(_, es) => es != []
    case Record(_, fs) => fs != []
    case _ => true
  }

  /** `iter(v)` succeeds: strings, tuples, lists, dicts and namedtuples. */
  predicate IsIterable(v: Value)
  {
    v.Str? || v.Tuple? || v.List? || v.Dict? || v.Record?
  }

  /** The class defines `__getitem__`; in this model exactly the iterable built-ins. */
  predicate HasGetItem(v: Value)
  {
    v.Str? || v.Tuple? || v.List? || v.Dict? || v.Record?
  }

  /** The items `iter(v)` yields, in order: the one-character strings of a
      string, the items of a sequence, the keys of a dict. */
  function Elements(v: Value): (r: seq<Value>)
    requires IsIterable(v)
    ensures v.Str? ==> |r| == |v.s|
    ensures v.Tuple? || v.List? ==> r == v.items
  {
    match v
    case Str(s) => seq(|s|, i requires 0 <= i < |s| => Str([s[i]]))
    case Tuple(xs) => xs
    case List(_, xs) => xs
    case Dict(_, es) => seq(|es|, i requires 0 <= i < |es| => Str(es[i].0))
    case Record(_, fs) => FieldValues(fs)
  }

  /** `key in v` for a string key: substring test on strings, key test on
      dicts, membership by `==` on sequences. */
  predicate ContainsKey(v: Value, key: string)
    requires IsIterable(v)
  {
    match v
    case Str(s) => exists i :: 0 <= i <= |s| && key <= s[i..]
    case Dict(_, es) => key in KeySet(es)
    case _ => exists e :: e in Elements(v) && PyEq(e, Str(key))
  }

  /** `callable(v)`. */
  predicate IsCallable(v: Value)
  {
    v.Thunk0? || v.ThunkN?
  }

  /** The attribute `name` of `v`, when it has one. Namedtuples have their
      fields and `_fields`; plain objects their instance attributes. Attributes
      of the built-in classes themselves (`str.upper`, `dict.keys`, ...) are not
      part of the model. */
  function AttrOf(v: Value, name: string): (r: Option<Value>)
    ensures v.Obj? ==> (r.Some? <==> name in v.attrs)
  {
    match v
    case Record(_, fs) => FieldAttr(fs, name)
    case Obj(_, _, _, attrs) => if name in attrs then Some(attrs[name]) else None
    case _ => None
  }

  /** `_fields` itself, or the value of the first field called `name`
      (namedtuple refuses field names that start with an underscore). */
  function FieldAttr(fs: seq<(string, Value)>, name: string): (r: Option<Value>)
    ensures r.Some? <==> name in FieldNames(fs) || name == "_fields"
  {
    if name == "_fields" then Some(FieldsTuple(fs)) else FirstField(fs, name)
  }

  function FirstField(fs: seq<(string, Value)>, name: string): (r: Option<Value>)
    ensures r.Some? <==> name in FieldNames(fs)
  {
    if fs == [] then None
    else if fs[0].0 == name then Some(fs[0].1)
    else
      assert FieldNames(fs) == [fs[0].0] + FieldNames(fs[1..]);
      FirstField(fs[1..], name)
  }

  /** `_fields` of a namedtuple: the tuple of its field names. */
  function FieldsTuple(fs: seq<(string, Value)>): (r: Value)
    ensures r.Tuple? && |r.items| == |fs|
    ensures forall i :: 0 <= i < |fs| ==> r.items[i] == Str(fs[i].0)
  {
    Tuple(seq(|fs|, i requires 0 <= i < |fs| => Str(fs[i].0)))
  }

  /** `hasattr(v, name)`. */
  predicate HasAttr(v: Value, name: string)
  {
    AttrOf(v, name).Some?
  }
}

=== FILE: wrappers.dfy ===
/** Failure-compatible wrappers shared by every module of the model. */
module Wrappers {

  /** An optional value, Python's `None` or a present value. */
  datatype Option<+T> = None | Some(value: T)

  /** A computation that either produced a value or raised. */
  datatype Result<+T, +E> = Ok(value: T) | Err(error: E) {
    predicate IsFailure() { Err? }

    function PropagateFailure<U>(): Result<U, E>
      requires Err?
    {
      Err(error)
    }

    function Extract(): T
      requires Ok?
    {
      value
    }
  }
}
